=== FILE: README.md ===
# E-book capture core, modelled in Dafny

This project models the pure logic of a set of scripts that capture the pages of an
online e-book viewer as screenshots and turn them into a searchable PDF. The scripts
drive a Chrome browser, so their decisions sit among browser calls. The model lifts
those decisions out and proves properties of them:

- **Frame comparison** (`images_similar`): are two screenshots "the same"? The test
  compares their 100x100 grayscale thumbnails pixel by pixel, with a tolerance of 10
  luminance levels and a threshold of 0.98.
- **Scroll-until-end capture** (`capture_current_page`): take screenshots while
  scrolling down. Stop at the first screenshot similar to the one before, at a scroll
  failure, or after 50 screenshots. Also the search for the iframe level that
  scrolls.
- **Fixed-count scroll plan** (`capture_page_screenshots` in the chapter scraper): the
  number of screenshots and their scroll offsets, from the content and viewport
  heights.
- **OCR normalisation** (`get_ocr_data`, `get_ocr_text`) and **text-layer geometry**
  (`create_ocr_pdf`). This covers page size in points, the pixel-to-point scale, word
  anchors, font sizes and the order of the pages.
- **String helpers**:
  - file-name sanitising (`clean_name`, `safe_title`, `safe_chapter`);
  - the section-link pattern and the chapter-title pick of the scraper;
  - the content-URL search of the full-page capture script.
- **Session bookkeeping**:
  - appending captures;
  - choosing the files for the PDF build;
  - the two status views.

Browser answers are parameters of the model. Screenshot thumbnails, navigation
results, scroll metrics, iframe trees, OCR word tables, whether a file exists and
timestamps all come in as values or as functions.

Files, one module each: `wrappers.dfy` (Option), `text.dfy` (character classes,
strip, slicing, substring and decimal helpers), `names.dfy`, `similarity.dfy`,
`capture_loop.dfy`, `scroll_plan.dfy`, `ocr.dfy`, `layout.dfy`, `session.dfy`,
`chapter.dfy`, `content_frame.dfy`, `capture_session.dfy` (the single-page
script's default run: captured screenshots become session entries).

Notes on the code's behaviour:

- **Confidence cut-off.** A token needs a confidence strictly above 30, so 30 itself
  is dropped.
- **DPI.** Pages use `PDF_SETTINGS["dpi"]` when it is configured (150 in the
  repository's configuration). 96 is only the fallback.
- **Pages are not always images.** A page is created before its image is embedded.
  So an image that decodes but fails to embed still yields a page, without image or
  text. Only images that fail to decode are skipped.
- **One page per screenshot.** Every screenshot becomes its own PDF page, and its
  text runs are placed relative to that page, with no origin offset.

## Model

| member | source | states |
|---|---|---|
| Text.Strip | capture.py:106 | `str.strip()`: the result is a contiguous slice of the input, only whitespace is removed from either end, none remains at the ends, and an already-stripped string is unchanged |
| Text.KeepNameChars | capture.py:106 | `re.sub(r'[^\w\s-]', '', s)` keeps only word, space and hyphen characters, and leaves a string made only of those unchanged |
| Text.KeepNameCharsAppend | capture.py:106 | the substitution works character by character: sanitising a concatenation concatenates the sanitised parts, so kept characters keep their order |
| Text.KeepNameCharsCounts | capture.py:106 | every kept character keeps its number of occurrences; every other character disappears |
| Text.ContainsIff | scraper.py:136 | the `sub in s` test holds exactly when `sub` occurs at some position of `s` |
| Text.FirstLine | scraper.py:115 | `split('\n')[0]` is the prefix before the first line break: it has no line break and is followed by one or by the end |
| Text.StartsWithSectionNumberIff | scraper.py:136 | the scanner accepts a text exactly when `^\d+\.\d+` matches it (digits, a dot, digits) |
| Text.DecimalRoundTrip | scraper.py:255 | the screenshot number written into a file name reads back as the same number |
| Text.ZeroPadded | capture.py:275 | `{n:03d}` gives at least three digits whose value is `n` |
| Text.IntStringInjective | capture_full.py:255 | distinct sizes print as distinct strings |
| Names.DisplayTitle | capture.py:102 | `driver.title or "Page"` is never empty and keeps a non-empty title |
| Names.CleanName | capture.py:105-108 | `clean_name` is non-empty, at most 40 characters, only `[\w\s-]`, with no surrounding whitespace; it is the sanitised, cut and stripped title when that is non-empty, and "page" exactly when that is empty |
| Names.CleanNameCutBeforeStrip | capture.py:106-107 | the 40-character cut comes before the strip: forty spaces followed by a word give "page" |
| Names.CleanNameIdempotent | capture.py:106-108 | sanitising a clean name again changes nothing |
| Names.CleanNameKeepsCleanTitles | capture.py:106-108 | a title that already is a valid clean name is used unchanged |
| Names.CleanNameFallback | capture_full.py:74-76 | a title with nothing but whitespace and non-name characters becomes "page" |
| Names.Sanitised | scraper.py:254 | the result is the longest prefix of the sanitised title within the limit, over `[\w\s-]` only |
| Names.SafeTitle | scraper.py:254 | `safe_title` is at most 30 characters over `[\w\s-]`, a prefix of the sanitised section title |
| Names.SafeChapter | scraper.py:355 | `safe_chapter` is at most 50 characters over `[\w\s-]`, a prefix of the sanitised chapter title |
| Names.SafeNamesHaveNoFallback | scraper.py:254 | unlike `clean_name`, the scraper's sanitisers neither strip nor fall back: they can be empty or start with a space |
| Similarity.Matches | capture.py:53 | the number of matching pixel pairs is at most the pixel count |
| Similarity.Score | capture.py:54 | the similarity fraction lies in [0, 1] |
| Similarity.ImagesSimilar | capture.py:31-58 | missing data, different sizes and empty thumbnails (division by zero caught) all give false, and a positive answer needs a threshold of at most 1 |
| Similarity.ImagesSimilarIff | capture.py:49-56 | similar exactly when both thumbnails exist, have the same non-zero size, and the match count is at least `threshold` times the pixel count |
| Similarity.MatchesSymmetric | capture.py:53 | the match count does not depend on the order of the two thumbnails |
| Similarity.MatchesAllIff | capture.py:53 | the match count equals the pixel count exactly when every pixel pair differs by less than 10 |
| Similarity.MatchesNoneIff | capture.py:53 | the match count is zero exactly when no pixel pair is within the tolerance |
| Similarity.ImagesSimilarSymmetric | capture.py:31-58 | the comparison is symmetric in its two screenshots |
| Similarity.ImagesSimilarReflexive | capture.py:53-56 | a non-empty thumbnail is similar to itself at every threshold up to 1 |
| Similarity.ImagesSimilarAtOneIff | capture.py:53-56 | at threshold 1, similar exactly when every pixel pair is within the tolerance |
| Similarity.UniformShiftIsSimilar | capture.py:53-56 | a uniform luminance shift of less than 10 is similar at every threshold up to 1 |
| Similarity.BlackWhiteNotSimilar | capture.py:53-56 | all-black against all-white is not similar at any positive threshold |
| Similarity.ImagesSimilarMonotone | capture.py:56 | similar at a threshold implies similar at every lower threshold |
| Similarity.DefaultThresholdCount | capture.py:41-56 | with 100x100 thumbnails and the default 0.98, similar exactly when at least 9800 pixels match |
| CaptureLoop.RunLength | capture.py:255-289 | from any pass on, the loop saves the longest run in which each screenshot was followed by a successful scroll and a non-similar screenshot, capped at 50 in all |
| CaptureLoop.SavedRun | capture.py:273-285 | `count` consecutive records from number `num` on, each with its stream screenshot, the page title and URL, and the file name of its number |
| CaptureLoop.ShotFileParts | capture.py:274-275 | a screenshot file name starts with its timestamp and ends in `.png`, and the digits after the clean name read back as the 1-based screenshot number |
| CaptureLoop.CaptureFrom | capture.py:253-289 | the records of that run, numbered consecutively, each with its stream screenshot, the page title and URL, and the file name of its number |
| CaptureLoop.CaptureCurrentPage | capture.py:233-289 | between 1 and 50 screenshots; the first is always saved; saved screenshots are the stream's prefix in order with `index` 0..n-1, the page's title and URL, and file `k` named from the `k`-th timestamp, the page's clean name and number `k + 1`; the loop ends only at the limit, a failed scroll or a similar screenshot |
| CaptureLoop.NoConsecutiveSimilar | capture.py:268-271 | no two consecutive saved screenshots are similar |
| CaptureLoop.StopsAtEndOfContent | capture.py:268-271 | stopping before 50 means the last scroll failed or the next screenshot was similar to the last saved one |
| CaptureLoop.EndlessContentHitsLimit | capture.py:233-255 | a page that always scrolls and always changes yields exactly 50 screenshots |
| CaptureLoop.PaddedWidthExact | capture.py:275 | screenshot numbers up to 999 are written with exactly three digits |
| CaptureLoop.ShotFileInjective | capture.py:275 | with timestamps of equal width, the file name determines the screenshot number |
| CaptureLoop.ShotFilesDistinct | capture.py:274-275 | two screenshots of one capture never get the same file name, even with identical timestamps |
| CaptureLoop.ScrollableDepthFrom | capture.py:144-214 | the iframe search ends at most 4 levels deep, passes only non-scrollable levels it could enter, and stops at a scrollable level, a dead end or the depth limit |
| CaptureLoop.ScrollableDepth | capture.py:146-214 | the same from the top-level document |
| CaptureLoop.ScrollableTopNeedsNoIframe | capture.py:164-170 | a scrollable top-level document is used at depth 0 |
| ScrollPlan.Viewport | scraper.py:232 | the viewport is the client height, or 800 when that is 0 or missing |
| ScrollPlan.FloorDiv | scraper.py:233 | `//` rounds towards minus infinity for either sign of divisor |
| ScrollPlan.ScreenshotCount | scraper.py:233 | at least one screenshot; for height `s >= 0` and viewport `v > 0` the count `n` has `(n-1)*v <= s < n*v` |
| ScrollPlan.ShotsFrom | scraper.py:242-274 | the loop takes shot `i` at offset `i*v`, continues only while the window is not at the bottom, and stops at the bottom or at the planned count |
| ScrollPlan.Plan | scraper.py:242-246 | between 1 and the planned count of shots, numbered from 0, the first at offset 0 and shot `k` at `k` times the viewport |
| ScrollPlan.PlanOffsetsIncrease | scraper.py:244 | with a positive viewport the offsets strictly increase |
| ScrollPlan.PlanLength | scraper.py:268-274 | a window that never reports the bottom gets every planned shot; one at the bottom immediately gets one |
| ScrollPlan.ClampedPlanStopsAtBottom | scraper.py:268-274 | with a browser that clamps the scroll position, all shots but the last are above the bottom, and the last is at or past it unless the count ran out |
| ScrollPlan.Records | scraper.py:253-264 | one record per planned shot, carrying its section, number and offset, and the file named from the safe section title, the 1-based number and that shot's timestamp |
| ScrollPlan.PageShotFileParts | scraper.py:253-255 | a page screenshot name is `safe_title`, `_`, digits that read back as the 1-based number, then `_`, the timestamp and `.png` |
| ScrollPlan.CapturePageScreenshots | scraper.py:181-279 | one to `n` records for the section, numbered from 0, at offsets `k` times the viewport, record `k` in the file named from the safe section title, `k + 1` and the `k`-th timestamp |
| Ocr.Normalise | pdf_generator.py:51-58 | a kept token's text is stripped and its box and confidence are copied unchanged |
| Ocr.FilterTokens | pdf_generator.py:45-58 | every kept token has non-empty stripped text and confidence above 30 |
| Ocr.FilterTokensAppend | pdf_generator.py:45-58 | filtering distributes over concatenation: kept tokens preserve engine order |
| Ocr.FilterTokensSingle | pdf_generator.py:46-58 | a token is kept, normalised, exactly when its stripped text is non-empty and its confidence exceeds 30 |
| Ocr.GetOcrData | pdf_generator.py:32-63 | an engine failure or a confidence that does not convert yields an empty list; otherwise the filtered tokens |
| Ocr.ConfidenceBoundary | pdf_generator.py:50 | confidence 30 is dropped, 31 kept, blank text dropped at any confidence |
| Ocr.ConfidenceThirtyDropped | pdf_generator.py:50 | a token with confidence exactly 30 is dropped |
| Ocr.ConfidenceThirtyOneKept | pdf_generator.py:50 | a token with confidence 31 and non-blank text is kept, with its box and confidence |
| Ocr.BlankTextDropped | pdf_generator.py:50 | a token whose text strips to nothing is dropped even at confidence 99 |
| Ocr.GetOcrText | pdf_generator.py:21-29 | the text is stripped, and "" when the engine raised |
| Layout.EffectiveDpi | pdf_generator.py:104 | the configured DPI, or 96 when none is configured |
| Layout.Points | pdf_generator.py:105-106 | a length in points times the DPI is the pixel length times 72, and a positive pixel length gives a positive length |
| Layout.Scale | pdf_generator.py:119-120 | the pixel-to-point scale is `72/dpi`, positive and independent of the image size |
| Layout.FontSize | pdf_generator.py:132 | the font size is within [6, 14] and equals `0.9*h` when that lies in the range, else the nearer bound |
| Layout.RunFor | pdf_generator.py:127-135 | the anchor is `(x*sx, y*sy + 0.8*h*sy)` with the token's text, and the font is within [6, 14] |
| Layout.RunAnchorMonotone | pdf_generator.py:127-135 | for equal box heights, a larger source y gives a larger anchor y |
| Layout.RunExample | pdf_generator.py:127-135 | a 100x20 box at the origin scaled by 0.75 anchors at (0, 12) with a 13.5-point font |
| Layout.Runs | pdf_generator.py:124-146 | one run per kept token, in OCR order |
| Layout.OcrPage | pdf_generator.py:98-154 | an undecodable image gives no page; otherwise a page of `px*72/dpi` points; a failed embedding leaves a page without image or text; else one run per kept token |
| Layout.OcrPageRunsUseDpiScale | pdf_generator.py:117-135 | the runs of a page are placed with scale `72/dpi` on both axes |
| Layout.SimplePage | pdf_generator.py:195-209 | the simple PDF's page for an image exists exactly when the image decodes and has no text layer |
| Layout.Collect | pdf_generator.py:95-154 | never more pages than images |
| Layout.PagesFollowDecodableImages | pdf_generator.py:95-154 | page `k` belongs to the `k`-th decodable image, with that image's size in points; undecodable images are skipped without affecting the rest |
| Layout.CollectAppend | pdf_generator.py:95-154 | building from two batches gives the first batch's pages followed by the second's |
| Layout.CollectPerImage | pdf_generator.py:95-154 | page `k` is exactly the per-image step applied to the `k`-th image that decodes |
| Layout.CreateOcrPdf | pdf_generator.py:95-154 | one page per decodable image, in input order; page `k` is the per-image OCR step for the `k`-th decodable image at the configured DPI, 96 when unset |
| Layout.CreateSimplePdf | pdf_generator.py:192-209 | one page per decodable image, in input order, each the simple per-image step, and none with a text layer |
| Layout.SimpleIsOcrWithoutText | pdf_generator.py:172-209 | `create_simple_pdf` yields the same pages as `create_ocr_pdf` minus the text layers |
| Session.Extend | capture_full.py:302 | the old entries stay as a prefix, the captures follow, and the length adds up |
| Session.ExistingPaths | capture_full.py:215 | every path passed on exists; with no existing file the list is empty |
| Session.ExistingPathsAppend | capture_full.py:215 | paths keep session order: the filter distributes over concatenation |
| Session.ExistingPathsKeepsExisting | capture.py:344 | every entry whose file exists contributes its path |
| Session.ExistingPathsEmptyIff | capture.py:344-348 | no path remains exactly when no recorded file exists |
| Session.ExistingPathsAllPresent | capture.py:343-344 | when every file exists, the paths are the session's paths in order |
| Session.GeneratePdf | capture_full.py:206-226 | an empty session does nothing; a session without existing files builds nothing; otherwise the build gets the non-empty list of existing paths |
| Session.StatusTitle | capture.py:384 | the status title is the first `min(len, 50)` characters of the entry's title, "Unknown" when the key is missing |
| Session.StatusTitles | capture.py:383-384 | one status title per entry, in order |
| Session.FirstOccurrencesDistinct | capture.py:382-387 | the first-occurrence list has no duplicates and contains exactly the titles that occur |
| Session.FirstOccurrencesRepeat | capture.py:382-387 | appending copies of one title adds that title to the first-occurrence list once, and only when it is new |
| Session.StatusAfterExtend | capture.py:380-387 | extending a session with entries that share one title adds at most one status line: that title cut to 50 characters, when it is new |
| Session.DistinctStatusTitles | capture.py:380-387 | the seen-set loop lists each distinct title once, at its first occurrence, and no other |
| Session.SizePart | capture_full.py:255 | a size side prints as `?` exactly when the key is missing, and never contains the separator |
| Session.SizeLabel | capture_full.py:255 | the label splits at its first `x` back into the width part and the height part |
| Session.SizeLabelInjective | capture_full.py:255 | the `WxH` label determines width and height, including which are missing |
| Session.FullStatusLines | capture_full.py:251-256 | one status line per entry, in order, with its title and size label |
| Chapter.ToSection | scraper.py:137-141 | a section records the stripped link text and the href |
| Chapter.KeepLinks | scraper.py:127-167 | kept links have non-empty text and href; in the pattern scan they match the section pattern |
| Chapter.KeepLinksAppend | scraper.py:127-143 | kept links stay in page order |
| Chapter.SectionLinkSingle | scraper.py:128-141 | a link is kept exactly when it is displayed, its text and href are non-empty, and the text starts with digits, a dot and digits or contains "Introduction" |
| Chapter.SectionLinkIff | scraper.py:128-141 | a link is a section link exactly when it is displayed, has a non-empty href and stripped text, and `^\d+\.\d+` matches the text or "Introduction" occurs in it |
| Chapter.ChapterSections | scraper.py:122-167 | the section links when there are any, otherwise the usable sibling links of selected items |
| Chapter.SectionLinkExamples | scraper.py:135-136 | "4.1 ..." and "... Introduction" are sections; hidden or href-less links are not |
| Chapter.ChapterTitle | scraper.py:103-118 | "Chapter" when no expanded item qualifies; otherwise a single non-empty line containing "Ch" |
| Chapter.ChapterTitleSkips | scraper.py:112-118 | an item that does not name the chapter is passed over |
| Chapter.ChapterTitleTakes | scraper.py:112-118 | an item whose first line is non-empty and contains "Ch" ends the search with that line |
| Chapter.ChapterTitlePicksFirst | scraper.py:112-118 | the title is the first line of the first expanded item whose first line is non-empty and contains "Ch" |
| Chapter.Capture | scraper.py:181-279 | capturing a page under a title gives at least one screenshot, all tagged with that title, numbered from 0, screenshot `k` in the file named from the title, `k + 1` and the page's `k`-th timestamp |
| Chapter.CountSomePositive | scraper.py:342-347 | some navigation succeeded exactly when the count of successes is positive |
| Chapter.VisitAll | scraper.py:337-347 | each successful navigation adds its page's screenshots (at least one) and its title; failed ones add nothing; every screenshot is tagged with a recorded title |
| Chapter.VisitShotsStep | scraper.py:342-347 | the last section appends exactly the screenshots of its page, after those of the earlier sections, when its navigation succeeded, and nothing otherwise |
| Chapter.VisitTitlesStep | scraper.py:342-347 | the last section adds its title exactly when its navigation succeeded |
| Chapter.VisitTitlesInOrder | scraper.py:337-347 | the titles recorded are those of the successfully visited sections, in section order |
| Chapter.ScrapeChapter | scraper.py:320-369 | with no sections the screenshots are exactly the current page's, captured under its title; with sections they and the titles are exactly those the section visits gather; every screenshot carries a recorded section title; a PDF job exists exactly when there were no sections or some navigation succeeded (equivalently, when a screenshot was taken), named `safe_chapter`, titled with the chapter, over the screenshots' files in order |
| ContentFrame.ContentUrlIff | capture_full.py:116 | a URL counts as content exactly when `jigsaw` or `book` occurs in it at some position |
| ContentFrame.FirstContentInner | capture_full.py:108-119 | finds a URL exactly when some displayed innermost iframe has a truthy content `src`, and then it is the `src` of the first such iframe |
| ContentFrame.ScanMiddle | capture_full.py:96-132 | the middle-frame loop keeps the URL found so far or replaces it by a content URL that an eligible middle frame yields (its first accepted iframe's `src`, or its own location when it has none), and never loses one; a non-empty start, or an eligible middle frame that yields some URL, makes the result non-empty |
| ContentFrame.ScanOuter | capture_full.py:86-141 | the outer loop's result is the starting value or a URL some eligible outer frame yields: from one of its middle frames, or its own truthy `src`; a non-empty start, or an eligible outer frame that yields some URL, makes the result non-empty |
| ContentFrame.ContentUrl | capture_full.py:80-151 | a URL is navigated to exactly when some eligible outer frame yields one (from its middle frames or as its `src`), and it is then one such yielded URL: a content URL or an eligible outer `src` |
| ContentFrame.ScanMiddleNoContent | capture_full.py:115-127 | with no content URL anywhere, the middle loop changes nothing |
| ContentFrame.ScanOuterNoContent | capture_full.py:136-141 | with no content URL anywhere, the outer loop yields the value already found, or else the first eligible outer `src` |
| ContentFrame.ContentUrlFallsBackToOuterSrc | capture_full.py:139-141 | with no content URL, the first eligible outer iframe's `src` is used, or nothing when there is none |
| ContentFrame.ContentInnerWins | capture_full.py:115-119 | a content iframe in the first eligible frames is chosen |
| ContentFrame.FallbackSkipsLaterLocations | capture_full.py:121-137 | after the fallback is set, a later middle frame's content location is ignored and the search stops |
| ContentFrame.ContentFileParts | capture_full.py:176-177 | the content PDF's name reads back as the timestamp, the clean page name and the `_content.pdf` suffix |
| ContentFrame.CaptureFullPage | capture_full.py:149-203 | at most one entry; none without a content URL or when printing fails; otherwise titled with the page title, carrying the content URL, stored under `{timestamp}_{clean name}_content.pdf` and without size keys |
| ContentFrame.NoSourceCapturesNothing | capture_full.py:149-151 | with no content URL and no outer `src`, the capture adds nothing to the session |
| CaptureSession.AsEntry | capture.py:279-285 | a screenshot record becomes an entry with its path, title and URL, and no size keys |
| CaptureSession.AsEntries | capture.py:279-285 | one entry per record, in order, with the record's path, title and URL |
| CaptureSession.EntriesKeepShots | capture.py:279-285 | records that share a title and URL give entries that share them, with the records' file names as paths |
| CaptureSession.CapturedEntries | capture.py:428-433 | a capture hands back one entry per saved screenshot (1 to 50), all under the page's title and URL, entry `k` with the path of the `k`-th screenshot file |
| CaptureSession.SilentCapture | capture.py:428-433 | the session keeps its old entries as a prefix and gains one per saved screenshot (1 to 50), all under the page's title and URL, the `k`-th new one with the path of the `k`-th screenshot file |
| CaptureSession.ExtendKeepsShots | capture.py:433 | appended entries keep their paths, titles and URLs, shifted past the old entries |
| CaptureSession.SilentCaptureStatus | capture.py:428-433 | a capture adds at most one status line: the page title cut to 50 characters, when no earlier entry shows it |

## Left out

- Browser driving through Selenium and the DevTools protocol is not modelled. This
  covers element lookup, panel selection, iframe switching, key presses, clicks,
  `execute_script`, navigation and print-to-PDF. Their results are parameters: the
  screenshot stream, scroll metrics, iframe trees, navigation outcomes and the
  print outcome.
- Image decoding, resizing to 100x100 and grayscale conversion (PIL) are external.
  Thumbnails are given as luminance sequences, and `None` stands for missing or
  undecodable data.
- Recognition itself (Tesseract) is external. The model starts from the engine's
  word table with `int(conf)` already applied; `None` marks a conversion that
  raises.
- PDF building (PyMuPDF) is a foreign library. `new_page`, `insert_image`,
  `insert_text`, metadata and `save` are not modelled; only the pages, their sizes
  and the numbers given to `insert_text` are. A failure of a single `insert_text`
  call (pdf_generator.py:145-146) is not modelled.
- Session file load, save and clear, `os.path.exists` (a parameter), `os.remove`,
  directory creation and the interactive "clear session?" prompt are file-system
  and console I/O.
- Timestamps are parameters only where they form screenshot and content-PDF file
  names (capture.py:274, scraper.py:253, capture_full.py:176). The `captured`
  field of session entries (capture.py:284, capture_full.py:192) is dropped, and
  so is the session's `started` field. The `index` key of the screenshot
  records (capture.py:283) and the `type` key of the content-PDF record
  (capture_full.py:191) are dropped from session entries too: nothing in the
  core reads them back. The final PDF paths, `ebook_capture_`,
  `ebook_full_` and `safe_chapter` followed by a timestamp (capture.py:351-352,
  capture_full.py:222-223, scraper.py:356-358), are not modelled beyond the
  `safe_chapter` stem. `time.sleep` is left out.
- Folder prefixes are dropped: `os.path.join` with `SCREENSHOT_FOLDER` or
  `OUTPUT_FOLDER` is not modelled, so a record's `file` or `path` is the bare
  file name.
- Command-line dispatch in the `main` functions is left out.
- Configuration constants from config.py are parameters, apart from the defaults
  written in the code.
- Python's Unicode `\w`, `\s` and `\d` are approximated by their ASCII members.
- Floating-point rounding is left out: the geometry and the similarity fraction
  use exact `real` arithmetic.
- Layout.Dpi: a zero or negative DPI setting is outside the model, because the
  type only admits positive values.
- ScrollPlan.ShotsFrom: the window's maximum scroll offset is read once. The
  source reads it again after every screenshot; a page whose height changes
  meanwhile is not modelled.
- ScrollPlan.ScreenshotCount: a missing scroll height, which makes the source
  raise a `TypeError`, is not modelled.
- Exceptions are not modelled in the browser walks: the iframe search of
  `capture_full_page` (which keeps a partial result), stale links in the section
  scan, and the outer `try` of `get_current_chapter_info`. Per-item read failures
  of expanded chapter items are modelled.
- In `capture_current_page`, when the panel screenshot fails the code falls back to
  a full-page screenshot (capture.py:259-266). The model takes whichever screenshot
  resulted as the stream's element, and a failure of that fallback is not modelled.
- The scraper's `connect_to_browser` failure path, the `window.innerHeight` probe
  that capture.py:222 only prints, and `setup_tesseract` are left out.

=== FILE: capture_loop.dfy ===
/**
 * The scroll-until-end loop of the single-page capture script, as a state
 * machine over the stream of screenshots the browser would return, and the
 * search for the iframe level that holds the scrollable content.
 *
 * The browser is abstracted away: `stream(n)` is what the n-th pass of the
 * loop observes (the screenshot's thumbnail and whether the Page Down that
 * follows it succeeded), `clock(n)` is the timestamp text taken when the n-th
 * screenshot is saved, and `levels(d)` is what the iframe search sees at
 * nesting depth `d`.
 */
module CaptureLoop {
  import opened Wrappers
  import opened Text
  import Names
  import Similarity

  /** Safety limit on the number of screenshots per page. */
  const MaxScreenshots := 50

  /** Width of the zero-padded screenshot number in file names. */
  const IndexWidth := 3

  /** One pass of the loop: the screenshot taken, and whether scrolling on afterwards worked. */
  datatype Observation = Observation(thumb: Option<Similarity.Thumb>, scrollOk: bool)

  /** A saved screenshot record (`path`, `title`, `url`, `index` in the session entry). */
  datatype Shot = Shot(index: nat, file: string, thumb: Option<Similarity.Thumb>, title: string, url: string)

  /** Screenshot file name: `{timestamp}_{clean_name}_{n:03d}.png` with the 1-based number `n`. */
  function ShotFile(stamp: string, cleanName: string, num: nat): string
  {
    stamp + "_" + cleanName + "_" + ZeroPadded(num + 1, IndexWidth) + ".png"
  }

  /**
   * A screenshot file name starts with its timestamp, ends in `.png`, and the
   * digits between the clean name and the extension read back as the 1-based
   * screenshot number.
   */
  lemma ShotFileParts(stamp: string, cleanName: string, num: nat)
    ensures var r := ShotFile(stamp, cleanName, num);
      |stamp| + |cleanName| + 2 + IndexWidth + 4 <= |r|
      && r[..|stamp|] == stamp && r[|r| - 4..] == ".png"
      && AllDigits(r[|stamp| + |cleanName| + 2..|r| - 4])
      && ParseDecimal(r[|stamp| + |cleanName| + 2..|r| - 4]) == num + 1
  {
    var head := stamp + "_" + cleanName + "_";
    var digits := ZeroPadded(num + 1, IndexWidth);
    assert (head + digits + ".png")[|head|..|head| + |digits|] == digits;
    assert (head + digits + ".png")[..|stamp|] == stamp;
  }

  /** After saving screenshot `j`, the page scrolled and screenshot `j + 1` shows new content. */
  predicate Continues(stream: nat -> Observation, j: nat)
  {
    stream(j).scrollOk
    && !Similarity.ImagesSimilar(stream(j).thumb, stream(j + 1).thumb, Similarity.DefaultThreshold)
  }

  /** The record the loop appends when it saves screenshot `num`. */
  function Saved(stream: nat -> Observation, clock: nat -> string, name: string, title: string, url: string, num: nat): Shot
  {
    Shot(num, ShotFile(clock(num), name, num), stream(num).thumb, title, url)
  }

  /**
   * How many screenshots the loop saves from the pass that saves screenshot
   * `num` on: the longest run in which each screenshot was followed by a
   * successful scroll and a screenshot that is not similar to it, capped at
   * `MaxScreenshots` in all.
   */
  function RunLength(stream: nat -> Observation, num: nat): (n: nat)
    requires num < MaxScreenshots
    ensures 1 <= n <= MaxScreenshots - num
    ensures forall j :: num <= j < num + n - 1 ==> Continues(stream, j)
    ensures num + n == MaxScreenshots || !Continues(stream, num + n - 1)
    decreases MaxScreenshots - num
  {
    if num + 1 < MaxScreenshots && Continues(stream, num) then 1 + RunLength(stream, num + 1) else 1
  }

  /** The records saved from the pass that saves screenshot `num` on, numbered consecutively. */
  function CaptureFrom(stream: nat -> Observation, clock: nat -> string, name: string, title: string, url: string,
                       num: nat)
    : (r: seq<Shot>)
    requires num < MaxScreenshots
    ensures |r| == RunLength(stream, num)
    ensures 1 <= |r| <= MaxScreenshots - num
    ensures forall i :: 0 <= i < |r| ==> r[i].index == num + i && r[i].thumb == stream(num + i).thumb
    ensures forall i :: 0 <= i < |r| ==> r[i].title == title && r[i].url == url
    ensures forall i :: 0 <= i < |r| ==> r[i].file == ShotFile(clock(num + i), name, num + i)
    ensures forall j :: num <= j < num + |r| - 1 ==> Continues(stream, j)
    ensures num + |r| == MaxScreenshots || !Continues(stream, num + |r| - 1)
  {
    SavedRun(stream, clock, name, title, url, num, RunLength(stream, num))
  }

  /** The records of `count` consecutive screenshots from number `num` on. */
  function SavedRun(stream: nat -> Observation, clock: nat -> string, name: string, title: string, url: string,
                    num: nat, count: nat)
    : (r: seq<Shot>)
    ensures |r| == count
    ensures forall i :: 0 <= i < |r| ==> r[i].index == num + i && r[i].thumb == stream(num + i).thumb
    ensures forall i :: 0 <= i < |r| ==> r[i].title == title && r[i].url == url
    ensures forall i :: 0 <= i < |r| ==> r[i].file == ShotFile(clock(num + i), name, num + i)
  {
    var r := seq(count, i requires 0 <= i < count => Saved(stream, clock, name, title, url, num + i));
    assert forall i :: 0 <= i < count ==> r[i] == Saved(stream, clock, name, title, url, num + i);
    r
  }

  /**
   * `capture_current_page` from the first screenshot on: the first screenshot
   * is always saved (there is no previous one to compare with), and the
   * records carry the page title (`driver.title or "Page"`) and URL.
   */
  function CaptureCurrentPage(stream: nat -> Observation, clock: nat -> string, driverTitle: string, url: string)
    : (r: seq<Shot>)
    ensures |r| == RunLength(stream, 0)
    ensures 1 <= |r| <= MaxScreenshots
    ensures r[0].thumb == stream(0).thumb
    ensures forall i :: 0 <= i < |r| ==> r[i].index == i && r[i].thumb == stream(i).thumb
    ensures forall i :: 0 <= i < |r| ==> r[i].title == Names.DisplayTitle(driverTitle) && r[i].url == url
    ensures forall i :: 0 <= i < |r| ==> r[i].file == ShotFile(clock(i), Names.CleanName(Names.DisplayTitle(driverTitle)), i)
    ensures forall j :: 0 <= j < |r| - 1 ==> Continues(stream, j)
    ensures |r| == MaxScreenshots || !Continues(stream, |r| - 1)
  {
    var title := Names.DisplayTitle(driverTitle);
    CaptureFrom(stream, clock, Names.CleanName(title), title, url, 0)
  }

  /** No two consecutive saved screenshots are similar to each other. */
  lemma NoConsecutiveSimilar(stream: nat -> Observation, clock: nat -> string, driverTitle: string, url: string, i: nat)
    requires i + 1 < RunLength(stream, 0)
    ensures var r := CaptureCurrentPage(stream, clock, driverTitle, url);
            !Similarity.ImagesSimilar(r[i].thumb, r[i + 1].thumb, Similarity.DefaultThreshold)
  {
    assert Continues(stream, i);
  }

  /**
   * The loop stops early (before the limit) only because the page did not
   * scroll or the next screenshot looked like the last one saved.
   */
  lemma StopsAtEndOfContent(stream: nat -> Observation, clock: nat -> string, driverTitle: string, url: string)
    requires RunLength(stream, 0) < MaxScreenshots
    ensures var n := |CaptureCurrentPage(stream, clock, driverTitle, url)|;
            !stream(n - 1).scrollOk
            || Similarity.ImagesSimilar(stream(n - 1).thumb, stream(n).thumb, Similarity.DefaultThreshold)
  {
  }

  /** A page whose every screenshot differs from the one before and always scrolls yields 50 screenshots. */
  lemma EndlessContentHitsLimit(stream: nat -> Observation, clock: nat -> string, driverTitle: string, url: string)
    requires forall j: nat :: Continues(stream, j)
    ensures |CaptureCurrentPage(stream, clock, driverTitle, url)| == MaxScreenshots
  {
  }

  // ---------------------------------------------------------------------------
  // File names

  /** A number below 10^k has at most k digits. */
  lemma {:induction false} DecimalLength(n: nat, k: nat, bound: nat)
    requires bound == Pow10(k) && n < bound
    ensures |Decimal(n)| <= Max(k, 1)
  {
    if n >= 10 {
      assert k >= 2;
      assert Pow10(k) == 10 * Pow10(k - 1);
      DecimalLength(n / 10, k - 1, Pow10(k - 1));
    }
  }

  function Pow10(k: nat): (p: nat)
    ensures p >= 1
  {
    if k == 0 then 1 else 10 * Pow10(k - 1)
  }

  /** Screenshot numbers up to 999 always take exactly three digits. */
  lemma PaddedWidthExact(num: nat)
    requires num + 1 < 1000
    ensures |ZeroPadded(num + 1, IndexWidth)| == IndexWidth
  {
    assert Pow10(3) == 1000;
    DecimalLength(num + 1, 3, 1000);
  }

  /** Screenshot numbers below 1000 can be read back from a file name whose timestamp width is known. */
  lemma ShotFileInjective(stamp1: string, stamp2: string, name: string, a: nat, b: nat)
    requires |stamp1| == |stamp2|
    requires a + 1 < 1000 && b + 1 < 1000
    requires ShotFile(stamp1, name, a) == ShotFile(stamp2, name, b)
    ensures a == b
  {
    PaddedWidthExact(a);
    PaddedWidthExact(b);
    var pa, pb := ZeroPadded(a + 1, IndexWidth), ZeroPadded(b + 1, IndexWidth);
    var at := |stamp1| + 1 + |name| + 1;
    var f1 := stamp1 + "_" + name + "_" + pa + ".png";
    var f2 := stamp2 + "_" + name + "_" + pb + ".png";
    assert f1[at..at + IndexWidth] == pa;
    assert f2[at..at + IndexWidth] == pb;
    ZeroPaddedInjective(a + 1, b + 1, IndexWidth);
  }

  /**
   * Two screenshots of one capture never share a file name, even when the
   * clock gives both the same (fixed-width) timestamp.
   */
  lemma ShotFilesDistinct(stream: nat -> Observation, clock: nat -> string, driverTitle: string, url: string, i: nat, j: nat)
    requires forall n: nat, m: nat :: |clock(n)| == |clock(m)|
    requires i < j < RunLength(stream, 0)
    ensures var r := CaptureCurrentPage(stream, clock, driverTitle, url);
            r[i].file != r[j].file
  {
    var r := CaptureCurrentPage(stream, clock, driverTitle, url);
    var name := Names.CleanName(Names.DisplayTitle(driverTitle));
    assert r[i].file == ShotFile(clock(i), name, i);
    assert r[j].file == ShotFile(clock(j), name, j);
    if r[i].file == r[j].file {
      ShotFileInjective(clock(i), clock(j), name, i, j);
    }
  }

  // ---------------------------------------------------------------------------
  // Finding the scrollable iframe level (`find_scrollable_depth`)

  /** The iframe search never goes deeper than this. */
  const MaxDepth := 4

  /** A level counts as scrollable when its scroll height exceeds its client height by more than this. */
  const ScrollSlack := 100

  datatype ScrollMetrics = ScrollMetrics(htmlScroll: int, htmlClient: int, bodyScroll: int, bodyClient: int)

  /**
   * What the search sees at one depth: the document's scroll metrics (`None`
   * when the script raised) and whether some iframe could be entered
   * (an `iframe.favre` first, otherwise any visible one taller than 50 pixels).
   */
  datatype Level = Level(metrics: Option<ScrollMetrics>, canEnter: bool)

  predicate Scrollable(l: Level)
  {
    && l.metrics.Some?
    && (|| l.metrics.value.htmlScroll > l.metrics.value.htmlClient + ScrollSlack
        || l.metrics.value.bodyScroll > l.metrics.value.bodyClient + ScrollSlack)
  }

  /**
   * The depth the search settles on, starting at `depth`: it is at most
   * `MaxDepth`, every shallower level was neither scrollable nor a dead end,
   * and it stops at a scrollable level, at a level with no iframe to enter,
   * or at the depth limit (whose own level is not examined).
   */
  function ScrollableDepthFrom(levels: nat -> Level, depth: nat): (d: nat)
    requires depth <= MaxDepth
    ensures depth <= d <= MaxDepth
    ensures forall k :: depth <= k < d ==> !Scrollable(levels(k)) && levels(k).canEnter
    ensures d == MaxDepth || Scrollable(levels(d)) || !levels(d).canEnter
    decreases MaxDepth - depth
  {
    if depth == MaxDepth then depth
    else if Scrollable(levels(depth)) then depth
    else if !levels(depth).canEnter then depth
    else ScrollableDepthFrom(levels, depth + 1)
  }

  function ScrollableDepth(levels: nat -> Level): (d: nat)
    ensures d <= MaxDepth
    ensures forall k :: 0 <= k < d ==> !Scrollable(levels(k)) && levels(k).canEnter
    ensures d == MaxDepth || Scrollable(levels(d)) || !levels(d).canEnter
  {
    ScrollableDepthFrom(levels, 0)
  }

  /** A scrollable top-level document is used as it is, without entering any iframe. */
  lemma ScrollableTopNeedsNoIframe(levels: nat -> Level)
    requires Scrollable(levels(0))
    ensures ScrollableDepth(levels) == 0
  {
  }
}

=== FILE: capture_session.dfy ===
/**
 * The default run of the single-page capture script: the screenshots of the
 * current page become session entries appended after the old ones.
 */
module CaptureSession {
  import opened Wrappers
  import opened Text
  import Names
  import CaptureLoop
  import Session

  /** The session entry a saved screenshot becomes; the entry has no size keys. */
  function AsEntry(s: CaptureLoop.Shot): (e: Session.Entry)
    ensures e.path == s.file && e.title == Some(s.title) && e.url == s.url
    ensures e.width.None? && e.height.None?
  {
    Session.Entry(s.file, Some(s.title), s.url, None, None)
  }

  /** The session entries of a list of saved screenshots, in order. */
  function AsEntries(shots: seq<CaptureLoop.Shot>): (r: seq<Session.Entry>)
    ensures |r| == |shots|
    ensures forall k :: 0 <= k < |r| ==> r[k].path == shots[k].file && r[k].url == shots[k].url
    ensures forall k :: 0 <= k < |r| ==> r[k].title.Some? && r[k].title.value == shots[k].title
    ensures forall k :: 0 <= k < |r| ==> r[k].width.None? && r[k].height.None?
  {
    seq(|shots|, k requires 0 <= k < |shots| => AsEntry(shots[k]))
  }

  /** The entries `capture_current_page` hands back for the session: all under the page's title and URL. */
  function CapturedEntries(stream: nat -> CaptureLoop.Observation, clock: nat -> string, driverTitle: string, url: string)
    : (r: seq<Session.Entry>)
    ensures |r| == CaptureLoop.RunLength(stream, 0)
    ensures 1 <= |r| <= CaptureLoop.MaxScreenshots
    ensures forall k :: 0 <= k < |r| ==>
              r[k].path == CaptureLoop.ShotFile(clock(k), Names.CleanName(Names.DisplayTitle(driverTitle)), k)
    ensures forall k :: 0 <= k < |r| ==> r[k].title.Some? && r[k].title.value == Names.DisplayTitle(driverTitle) && r[k].url == url
  {
    var title := Names.DisplayTitle(driverTitle);
    var shots := CaptureLoop.CaptureCurrentPage(stream, clock, driverTitle, url);
    EntriesKeepShots(shots, clock, Names.CleanName(title), title, url);
    AsEntries(shots)
  }

  /**
   * Screenshots named in capture order that all carry one title and URL give
   * entries with the same paths, all carrying that title and URL.
   */
  lemma EntriesKeepShots(shots: seq<CaptureLoop.Shot>, clock: nat -> string, cleanName: string, title: string, url: string)
    requires forall i :: 0 <= i < |shots| ==> shots[i].file == CaptureLoop.ShotFile(clock(i), cleanName, i)
    requires forall k :: 0 <= k < |shots| ==> shots[k].title == title && shots[k].url == url
    ensures forall k :: 0 <= k < |shots| ==> AsEntries(shots)[k].path == CaptureLoop.ShotFile(clock(k), cleanName, k)
    ensures forall k :: 0 <= k < |shots| ==>
              AsEntries(shots)[k].title.Some? && AsEntries(shots)[k].title.value == title && AsEntries(shots)[k].url == url
  {
  }

  /**
   * The default run of the single-page capture script: capture the current
   * page and extend the session with the new screenshots, after the old ones.
   */
  function SilentCapture(entries: seq<Session.Entry>, stream: nat -> CaptureLoop.Observation, clock: nat -> string,
                         driverTitle: string, url: string): (r: seq<Session.Entry>)
    ensures |entries| < |r| <= |entries| + CaptureLoop.MaxScreenshots
    ensures |r| == |entries| + CaptureLoop.RunLength(stream, 0)
    ensures r[..|entries|] == entries
    ensures forall k :: 0 <= k < |r| - |entries| ==>
              r[|entries| + k].path == CaptureLoop.ShotFile(clock(k), Names.CleanName(Names.DisplayTitle(driverTitle)), k)
    ensures forall k :: |entries| <= k < |r| ==>
              r[k].title.Some? && r[k].title.value == Names.DisplayTitle(driverTitle) && r[k].url == url
  {
    var title := Names.DisplayTitle(driverTitle);
    var added := CapturedEntries(stream, clock, driverTitle, url);
    ExtendKeepsShots(entries, added, clock, Names.CleanName(title), title, url);
    Session.Extend(entries, added)
  }

  /** Appending entries moves each one, with its path, title and URL, up by the number of old entries. */
  lemma ExtendKeepsShots(entries: seq<Session.Entry>, added: seq<Session.Entry>, clock: nat -> string,
                         cleanName: string, title: string, url: string)
    requires forall k :: 0 <= k < |added| ==> added[k].path == CaptureLoop.ShotFile(clock(k), cleanName, k)
    requires forall k :: 0 <= k < |added| ==> added[k].title.Some? && added[k].title.value == title && added[k].url == url
    ensures forall k :: 0 <= k < |added| ==>
              Session.Extend(entries, added)[|entries| + k].path == CaptureLoop.ShotFile(clock(k), cleanName, k)
    ensures forall k :: |entries| <= k < |entries| + |added| ==>
              Session.Extend(entries, added)[k].title.Some? && Session.Extend(entries, added)[k].title.value == title
              && Session.Extend(entries, added)[k].url == url
  {
  }

  /**
   * A capture adds at most one line to the status view: the page's title cut
   * to 50 characters, when no earlier entry shows the same title.
   */
  lemma SilentCaptureStatus(entries: seq<Session.Entry>, stream: nat -> CaptureLoop.Observation, clock: nat -> string,
                            driverTitle: string, url: string)
    ensures var t := Take(Names.DisplayTitle(driverTitle), Session.StatusTitleLimit);
            var before := Session.StatusTitles(entries);
            Session.FirstOccurrences(Session.StatusTitles(SilentCapture(entries, stream, clock, driverTitle, url)))
            == Session.FirstOccurrences(before) + (if t in before then [] else [t])
  {
    var r := SilentCapture(entries, stream, clock, driverTitle, url);
    Session.StatusAfterExtend(entries, r[|entries|..], Names.DisplayTitle(driverTitle));
    assert r == entries + r[|entries|..];
  }
}

=== FILE: chapter.dfy ===
/**
 * The chapter scraper's pure decisions: which table-of-contents links are
 * chapter sections, which expanded item names the chapter, and how the
 * per-section captures add up to the chapter's PDF job. The browser's answers
 * (links found, navigation results, screenshots taken) are parameters.
 */
module Chapter {
  import opened Wrappers
  import opened Text
  import Names
  import ScrollPlan

  /** Title used when no expanded item looks like a chapter heading. */
  const DefaultChapterTitle := "Chapter"

  /**
   * A link found in the table of contents: whether it is displayed, its
   * visible text, and its `href` attribute (`None` when absent).
   */
  datatype Link = Link(displayed: bool, text: string, href: Option<string>)

  datatype Section = Section(title: string, href: string)

  /** `if text and href`, with the text stripped. */
  predicate Usable(l: Link)
  {
    l.displayed && Strip(l.text) != [] && l.href.Some? && l.href.value != []
  }

  /** `re.match(r'^\d+\.\d+', text) or 'Introduction' in text`. */
  predicate LooksLikeSection(text: string)
  {
    StartsWithSectionNumber(text) || Contains(text, "Introduction")
  }

  predicate IsSectionLink(l: Link)
  {
    Usable(l) && LooksLikeSection(Strip(l.text))
  }

  /**
   * A section link, in the terms of the source's test: a displayed link with
   * an `href`, whose stripped text is non-empty and either starts with
   * digits, a dot and a digit, or contains `Introduction` somewhere.
   */
  lemma SectionLinkIff(l: Link)
    ensures IsSectionLink(l) <==>
      l.displayed && l.href.Some? && l.href.value != [] && Strip(l.text) != []
      && ((exists i: nat, j: nat :: SectionNumberAt(Strip(l.text), i, j))
          || (exists i: nat :: OccursAt(Strip(l.text), "Introduction", i)))
  {
    StartsWithSectionNumberIff(Strip(l.text));
    ContainsIff(Strip(l.text), "Introduction");
  }

  function ToSection(l: Link): (s: Section)
    requires Usable(l)
    ensures s.title == Strip(l.text) && s.href == l.href.value
  {
    Section(Strip(l.text), l.href.value)
  }

  /**
   * The links kept by the scan over all e-book links (`pattern` true) or by
   * the fallback scan over the siblings of selected items (`pattern` false),
   * in page order.
   */
  function KeepLinks(links: seq<Link>, pattern: bool): (r: seq<Section>)
    ensures |r| <= |links|
    ensures forall k :: 0 <= k < |r| ==> r[k].title != [] && r[k].href != []
    ensures pattern ==> forall k :: 0 <= k < |r| ==> LooksLikeSection(r[k].title)
  {
    if links == [] then []
    else
      var last := links[|links| - 1];
      var keep := Usable(last) && (!pattern || LooksLikeSection(Strip(last.text)));
      KeepLinks(links[..|links| - 1], pattern) + (if keep then [ToSection(last)] else [])
  }

  /** Kept links stay in page order: the scan distributes over concatenation. */
  lemma {:induction false} KeepLinksAppend(a: seq<Link>, b: seq<Link>, pattern: bool)
    ensures KeepLinks(a + b, pattern) == KeepLinks(a, pattern) + KeepLinks(b, pattern)
    decreases |b|
  {
    if b == [] {
      assert a + b == a;
    } else {
      var b' := b[..|b| - 1];
      assert (a + b)[..|a + b| - 1] == a + b';
      KeepLinksAppend(a, b', pattern);
    }
  }

  /** A single link is kept exactly when it is a section link (both directions). */
  lemma SectionLinkSingle(l: Link)
    ensures KeepLinks([l], true) == if IsSectionLink(l) then [ToSection(l)] else []
  {
    assert [l][..0] == [];
  }

  /**
   * The sections `get_current_chapter_info` returns: the section links, or,
   * when there are none, every usable link among the siblings of selected
   * items.
   */
  function ChapterSections(links: seq<Link>, siblings: seq<Link>): (r: seq<Section>)
    ensures KeepLinks(links, true) != [] ==> r == KeepLinks(links, true)
    ensures KeepLinks(links, true) == [] ==> r == KeepLinks(siblings, false)
  {
    var sections := KeepLinks(links, true);
    if sections != [] then sections else KeepLinks(siblings, false)
  }

  /** Section links are recognised by the numbering pattern or by "Introduction". */
  lemma SectionLinkExamples(href: string)
    requires href != []
    ensures IsSectionLink(Link(true, "4.1 Cells", Some(href)))
    ensures IsSectionLink(Link(true, "Ch 4 Introduction", Some(href)))
    ensures !IsSectionLink(Link(false, "4.1 Cells", Some(href)))
    ensures !IsSectionLink(Link(true, "4.1 Cells", None))
  {
    NumberedTitle();
    IntroductionTitle();
  }

  lemma NumberedTitle()
    ensures Strip("4.1 Cells") == "4.1 Cells" && LooksLikeSection("4.1 Cells")
  {
    var t := "4.1 Cells";
    assert IsStripped(t);
    assert t[1..][0] == '.';
    assert LeadingDigits(t) == 1;
  }

  lemma IntroductionTitle()
    ensures Strip("Ch 4 Introduction") == "Ch 4 Introduction" && LooksLikeSection("Ch 4 Introduction")
  {
    var u := "Ch 4 Introduction";
    assert IsStripped(u);
    assert OccursAt(u, "Introduction", 5);
    ContainsIff(u, "Introduction");
  }

  // ---------------------------------------------------------------------------
  // Chapter title

  /** `item.text.strip().split('\n')[0]` of an expanded item; `None` when reading it raised. */
  function Candidate(text: string): string
  {
    FirstLine(Strip(text))
  }

  predicate NamesChapter(item: Option<string>)
  {
    item.Some? && Candidate(item.value) != [] && Contains(Candidate(item.value), "Ch")
  }

  /**
   * The chapter title: the first line of the first expanded item whose first
   * line is non-empty and contains "Ch", or "Chapter" when there is none.
   */
  function ChapterTitle(items: seq<Option<string>>): (r: string)
    ensures (forall i :: 0 <= i < |items| ==> !NamesChapter(items[i])) ==> r == DefaultChapterTitle
    ensures r == DefaultChapterTitle || (r != [] && '\n' !in r && Contains(r, "Ch"))
  {
    if items == [] then DefaultChapterTitle
    else if NamesChapter(items[0]) then Candidate(items[0].value)
    else
      var r := ChapterTitle(items[1..]);
      assert forall i :: 1 <= i < |items| ==> items[1..][i - 1] == items[i];
      r
  }

  /** An item that does not name the chapter is passed over. */
  lemma ChapterTitleSkips(items: seq<Option<string>>)
    requires items != [] && !NamesChapter(items[0])
    ensures ChapterTitle(items) == ChapterTitle(items[1..])
  {
  }

  /** An item that names the chapter ends the search. */
  lemma ChapterTitleTakes(items: seq<Option<string>>)
    requires items != [] && NamesChapter(items[0])
    ensures ChapterTitle(items) == Candidate(items[0].value)
  {
  }

  /** Dropping the first item keeps "no earlier item names the chapter" for the rest. */
  lemma NoneBeforeShift(items: seq<Option<string>>, i: nat)
    requires 0 < i < |items|
    requires forall j :: 0 <= j < i ==> !NamesChapter(items[j])
    ensures forall j :: 0 <= j < i - 1 ==> !NamesChapter(items[1..][j])
  {
    forall j | 0 <= j < i - 1
      ensures !NamesChapter(items[1..][j])
    {
      assert items[1..][j] == items[j + 1];
    }
  }

  /** The loop stops at the first item that names the chapter. */
  lemma {:induction false} ChapterTitlePicksFirst(items: seq<Option<string>>, i: nat)
    requires i < |items| && NamesChapter(items[i])
    requires forall j :: 0 <= j < i ==> !NamesChapter(items[j])
    ensures ChapterTitle(items) == Candidate(items[i].value)
  {
    if i == 0 {
      ChapterTitleTakes(items);
    } else {
      ChapterTitleSkips(items);
      NoneBeforeShift(items, i);
      assert items[1..][i - 1] == items[i];
      ChapterTitlePicksFirst(items[1..], i - 1);
    }
  }

  // ---------------------------------------------------------------------------
  // Aggregating a chapter

  /** The PDF job `scrape_chapter` hands to `create_ocr_pdf`. */
  datatype PdfJob = PdfJob(fileStem: string, files: seq<string>, title: string)

  datatype Scrape = Scrape(shots: seq<ScrollPlan.PageShot>, sectionTitles: seq<string>, pdf: Option<PdfJob>)

  /**
   * What the browser shows after navigating somewhere: the content's
   * dimensions, where the window actually ends up after each scroll request,
   * and the timestamp text at each screenshot (the inputs of
   * `capture_page_screenshots`).
   */
  datatype PageView = PageView(scrollHeight: int, clientHeight: Option<int>, maxScroll: int,
                               offsetAfter: int -> int, clock: nat -> string)

  /** `capture_page_screenshots(title)` on the page `v`. */
  function Capture(title: string, v: PageView): (r: seq<ScrollPlan.PageShot>)
    ensures r != []
    ensures forall k :: 0 <= k < |r| ==> r[k].section == title && r[k].index == k
    ensures forall k :: 0 <= k < |r| ==> r[k].file == ScrollPlan.PageShotFile(title, k, v.clock(k))
  {
    ScrollPlan.CapturePageScreenshots(title, v.scrollHeight, v.clientHeight, v.maxScroll, v.offsetAfter, v.clock)
  }

  /** The number of present values. */
  function CountSome<T>(xs: seq<Option<T>>): (n: nat)
    ensures n <= |xs|
  {
    if xs == [] then 0 else CountSome(xs[..|xs| - 1]) + (if xs[|xs| - 1].Some? then 1 else 0)
  }

  /** Some value is present exactly when the count is positive. */
  lemma {:induction false} CountSomePositive<T>(xs: seq<Option<T>>)
    ensures CountSome(xs) > 0 <==> exists i :: 0 <= i < |xs| && xs[i].Some?
  {
    if xs != [] {
      var init := xs[..|xs| - 1];
      CountSomePositive(init);
      assert forall i :: 0 <= i < |init| ==> init[i] == xs[i];
      if xs[|xs| - 1].None? && CountSome(xs) == 0 {
        forall i | 0 <= i < |xs|
          ensures xs[i].None?
        {
          if i < |init| {
            assert init[i] == xs[i];
          }
        }
      }
    }
  }

  /**
   * The loop over sections: `visits[i]` is `None` when navigating to section
   * `i` failed and otherwise the page the browser then shows, which is
   * captured under the section's title. Only successful visits add
   * screenshots (at least one each) and a section title.
   */
  function VisitAll(sections: seq<Section>, visits: seq<Option<PageView>>)
    : (r: (seq<ScrollPlan.PageShot>, seq<string>))
    requires |visits| == |sections|
    ensures |r.1| == CountSome(visits) <= |r.0|
    ensures CountSome(visits) == 0 ==> r.0 == []
    ensures forall k :: 0 <= k < |r.0| ==> r.0[k].section in r.1
  {
    if sections == [] then ([], [])
    else
      var n := |sections| - 1;
      var before := VisitAll(sections[..n], visits[..n]);
      assert visits[..n] == visits[..|visits| - 1];
      match visits[n]
      case None => before
      case Some(v) =>
        var shots := Capture(sections[n].title, v);
        var all := before.0 + shots;
        assert forall k :: |before.0| <= k < |all| ==> all[k] == shots[k - |before.0|];
        (all, before.1 + [sections[n].title])
  }

  /** The titles recorded are those of the sections whose navigation succeeded, in order. */
  lemma {:induction false} VisitTitlesInOrder(sections: seq<Section>, visits: seq<Option<PageView>>, i: nat)
    requires |visits| == |sections|
    requires i < |sections| && visits[i].Some?
    ensures var titles := VisitAll(sections, visits).1;
            var k := CountSome(visits[..i]);
            k < |titles| && titles[k] == sections[i].title
  {
    var n := |sections| - 1;
    VisitTitlesStep(sections, visits);
    if i < n {
      assert visits[..n][..i] == visits[..i];
      assert sections[..n][i] == sections[i] && visits[..n][i] == visits[i];
      VisitTitlesInOrder(sections[..n], visits[..n], i);
    } else {
      assert visits[..n] == visits[..i];
    }
  }

  /**
   * The last section adds exactly the screenshots captured on its page, after
   * those of the earlier sections, when its navigation succeeded, and none
   * otherwise.
   */
  lemma VisitShotsStep(sections: seq<Section>, visits: seq<Option<PageView>>)
    requires |visits| == |sections| > 0
    ensures var n := |sections| - 1;
            VisitAll(sections, visits).0
            == VisitAll(sections[..n], visits[..n]).0
               + (if visits[n].Some? then Capture(sections[n].title, visits[n].value) else [])
  {
  }

  /** The last section adds its title exactly when its navigation succeeded. */
  lemma VisitTitlesStep(sections: seq<Section>, visits: seq<Option<PageView>>)
    requires |visits| == |sections| > 0
    ensures var n := |sections| - 1;
            VisitAll(sections, visits).1
            == VisitAll(sections[..n], visits[..n]).1 + (if visits[n].Some? then [sections[n].title] else [])
  {
  }

  /**
   * `scrape_chapter` after connecting: with no sections, the current page is
   * captured under `driver.title or "Page"`; otherwise every section is
   * visited. A PDF job is made exactly when some screenshot was taken, which
   * is exactly when there were no sections or some navigation succeeded.
   */
  function ScrapeChapter(chapterTitle: string, sections: seq<Section>, visits: seq<Option<PageView>>,
                         driverTitle: string, current: PageView): (r: Scrape)
    requires |visits| == |sections|
    ensures sections == [] ==> r.sectionTitles == [Names.DisplayTitle(driverTitle)] && r.shots != []
    ensures sections == [] ==> r.shots == Capture(Names.DisplayTitle(driverTitle), current)
    ensures sections != [] ==> r.shots == VisitAll(sections, visits).0 && r.sectionTitles == VisitAll(sections, visits).1
    ensures sections != [] ==> |r.sectionTitles| == CountSome(visits) <= |r.shots|
    ensures forall k :: 0 <= k < |r.shots| ==> r.shots[k].section in r.sectionTitles
    ensures r.pdf.Some? <==> r.shots != []
    ensures r.pdf.Some? <==> sections == [] || exists i :: 0 <= i < |visits| && visits[i].Some?
    ensures r.pdf.Some? ==> r.pdf.value.title == chapterTitle
                            && r.pdf.value.fileStem == Names.SafeChapter(chapterTitle)
                            && |r.pdf.value.files| == |r.shots|
                            && forall k :: 0 <= k < |r.shots| ==> r.pdf.value.files[k] == r.shots[k].file
  {
    CountSomePositive(visits);
    var (shots, titles) :=
      if sections == [] then
        var title := Names.DisplayTitle(driverTitle);
        (Capture(title, current), [title])
      else VisitAll(sections, visits);
    var pdf :=
      if shots == [] then None
      else Some(PdfJob(Names.SafeChapter(chapterTitle), seq(|shots|, k requires 0 <= k < |shots| => shots[k].file),
                       chapterTitle));
    Scrape(shots, titles, pdf)
  }
}

=== FILE: content_frame.dfy ===
/**
 * The full-page capture script's search for the e-book content URL inside
 * the nested iframes of the main panel (`capture_full_page`), and the session
 * entry it produces. The iframe tree is given as data; the browser's
 * print-to-PDF is reduced to whether it succeeded.
 */
module ContentFrame {
  import opened Wrappers
  import opened Text
  import Names
  import Session

  /** Outer and middle iframes are only entered when displayed and taller than this. */
  const MinFrameHeight := 50

  /** Innermost iframe: whether it is displayed and its `src` attribute. */
  datatype Inner = Inner(displayed: bool, src: Option<string>)

  /**
   * Middle iframe: visibility, height, the `window.location.href` seen once
   * inside it, and its own iframes.
   */
  datatype Middle = Middle(displayed: bool, height: int, location: string, inner: seq<Inner>)

  /** Outer iframe of the main panel: visibility, height, `src` and its iframes. */
  datatype Outer = Outer(displayed: bool, height: int, src: Option<string>, middle: seq<Middle>)

  /** `'jigsaw' in url or 'book' in url`. */
  predicate IsContentUrl(url: string)
  {
    Contains(url, "jigsaw") || Contains(url, "book")
  }

  /** A content URL has `jigsaw` or `book` at some position. */
  lemma ContentUrlIff(url: string)
    ensures IsContentUrl(url) <==>
      (exists i: nat :: OccursAt(url, "jigsaw", i)) || (exists i: nat :: OccursAt(url, "book", i))
  {
    ContainsIff(url, "jigsaw");
    ContainsIff(url, "book");
  }

  /** A Python string attribute that is truthy: present and non-empty. */
  predicate Truthy(s: Option<string>)
  {
    s.Some? && s.value != []
  }

  /** An innermost iframe the inner loop accepts: displayed, with a truthy content `src`. */
  predicate InnerHit(f: Inner)
  {
    f.displayed && Truthy(f.src) && IsContentUrl(f.src.value)
  }

  /** Frame `k` is the first accepted innermost iframe, and its `src` is `url`. */
  predicate FirstHitAt(frames: seq<Inner>, k: int, url: string)
  {
    && 0 <= k < |frames| && InnerHit(frames[k]) && frames[k].src.value == url
    && forall j :: 0 <= j < k ==> !InnerHit(frames[j])
  }

  /** The first displayed innermost iframe whose `src` is a content URL. */
  function FirstContentInner(frames: seq<Inner>): (r: Option<string>)
    ensures r.Some? ==> r.value != [] && IsContentUrl(r.value)
    ensures r.Some? ==> exists k :: FirstHitAt(frames, k, r.value)
    ensures r.None? <==> forall k :: 0 <= k < |frames| ==> !InnerHit(frames[k])
  {
    if frames == [] then None
    else if InnerHit(frames[0]) then
      assert FirstHitAt(frames, 0, frames[0].src.value);
      frames[0].src
    else
      var r := FirstContentInner(frames[1..]);
      assert forall k :: 1 <= k < |frames| ==> frames[1..][k - 1] == frames[k];
      FirstHitShift(frames, r);
      r
  }

  /** A first hit after a rejected frame is the first hit of the whole list. */
  lemma FirstHitShift(frames: seq<Inner>, r: Option<string>)
    requires frames != [] && !InnerHit(frames[0])
    requires r.Some? ==> exists k :: FirstHitAt(frames[1..], k, r.value)
    ensures r.Some? ==> exists k :: FirstHitAt(frames, k, r.value)
  {
    if r.Some? {
      var k :| FirstHitAt(frames[1..], k, r.value);
      assert forall j :: 1 <= j <= k ==> frames[1..][j - 1] == frames[j];
      assert FirstHitAt(frames, k + 1, r.value);
    }
  }

  /** A middle iframe the middle loop looks into: displayed and taller than 50 pixels. */
  predicate EligibleMiddle(m: Middle)
  {
    m.displayed && m.height > MinFrameHeight
  }

  /** An outer iframe the outer loop looks into: displayed and taller than 50 pixels. */
  predicate EligibleOuter(o: Outer)
  {
    o.displayed && o.height > MinFrameHeight
  }

  /**
   * `url` can come out of the eligible middle frame `m`: it is the `src` of
   * the first accepted innermost iframe, or, when there is none, `m`'s own
   * content location.
   */
  predicate MiddleYields(m: Middle, url: string)
  {
    && EligibleMiddle(m)
    && (|| FirstContentInner(m.inner) == Some(url)
        || (FirstContentInner(m.inner).None? && IsContentUrl(m.location) && m.location == url))
  }

  /** `url` can come out of the eligible outer frame `o`: from one of its middle frames, or as its truthy `src`. */
  predicate OuterYields(o: Outer, url: string)
  {
    && EligibleOuter(o)
    && (|| (exists j :: 0 <= j < |o.middle| && MiddleYields(o.middle[j], url))
        || (Truthy(o.src) && o.src.value == url))
  }

  /**
   * The loop over middle iframes, given the URL found so far (`""` for
   * `None`): an eligible middle frame's content iframe replaces it; when
   * nothing is found yet the middle frame's own location may serve; the loop
   * stops at the first eligible frame after which something is found.
   */
  function ScanMiddle(frames: seq<Middle>, found: string): (r: string)
    ensures r == found || (r != [] && IsContentUrl(r))
    ensures r == found || exists k :: 0 <= k < |frames| && MiddleYields(frames[k], r)
    ensures found != [] ==> r != []
    ensures (exists k, u :: 0 <= k < |frames| && MiddleYields(frames[k], u)) ==> r != []
  {
    if frames == [] then found
    else
      var m := frames[0];
      if !EligibleMiddle(m) then
        var r := ScanMiddle(frames[1..], found);
        MiddleShift(frames, r);
        r
      else
        var afterInner := match FirstContentInner(m.inner)
          case Some(u) => u
          case None => found;
        var afterLocation := if afterInner == [] && IsContentUrl(m.location) then m.location else afterInner;
        if afterLocation != [] then
          assert afterLocation != found ==> MiddleYields(frames[0], afterLocation);
          afterLocation
        else
          var r := ScanMiddle(frames[1..], afterLocation);
          MiddleShift(frames, r);
          r
  }

  /** A middle frame that yields `url` after the first is a middle frame that yields it. */
  lemma MiddleShift(frames: seq<Middle>, url: string)
    requires frames != []
    ensures (exists k :: 0 <= k < |frames| - 1 && MiddleYields(frames[1..][k], url))
            ==> exists k :: 0 <= k < |frames| && MiddleYields(frames[k], url)
  {
    if exists k :: 0 <= k < |frames| - 1 && MiddleYields(frames[1..][k], url) {
      var k :| 0 <= k < |frames| - 1 && MiddleYields(frames[1..][k], url);
      assert frames[1..][k] == frames[k + 1];
    }
  }

  /** The loop over outer iframes: after an eligible frame yields nothing, its truthy `src` is the fallback. */
  function ScanOuter(frames: seq<Outer>, found: string): (r: string)
    ensures r == found || (r != [] && IsContentUrl(r)) || exists k :: 0 <= k < |frames| && IsFallback(frames[k], r)
    ensures r == found || exists k :: 0 <= k < |frames| && OuterYields(frames[k], r)
    ensures found != [] ==> r != []
    ensures (exists k, u :: 0 <= k < |frames| && OuterYields(frames[k], u)) ==> r != []
  {
    if frames == [] then found
    else
      var o := frames[0];
      if !EligibleOuter(o) then
        var r := ScanOuter(frames[1..], found);
        assert forall k :: 1 <= k < |frames| ==> frames[1..][k - 1] == frames[k];
        OuterShift(frames, r);
        r
      else
        var afterMiddle := ScanMiddle(o.middle, found);
        if afterMiddle != [] then
          assert afterMiddle != found ==> OuterYields(frames[0], afterMiddle);
          afterMiddle
        else
          var next := if Truthy(o.src) then o.src.value else afterMiddle;
          var r := ScanOuter(frames[1..], next);
          assert forall k :: 1 <= k < |frames| ==> frames[1..][k - 1] == frames[k];
          assert Truthy(o.src) ==> IsFallback(frames[0], next) && OuterYields(frames[0], next);
          OuterShift(frames, r);
          r
  }

  /** An outer frame that yields `url` after the first is an outer frame that yields it. */
  lemma OuterShift(frames: seq<Outer>, url: string)
    requires frames != []
    ensures (exists k :: 0 <= k < |frames| - 1 && OuterYields(frames[1..][k], url))
            ==> exists k :: 0 <= k < |frames| && OuterYields(frames[k], url)
  {
    if exists k :: 0 <= k < |frames| - 1 && OuterYields(frames[1..][k], url) {
      var k :| 0 <= k < |frames| - 1 && OuterYields(frames[1..][k], url);
      assert frames[1..][k] == frames[k + 1];
    }
  }

  /** An eligible outer frame whose truthy `src` is `url`. */
  predicate IsFallback(o: Outer, url: string)
  {
    EligibleOuter(o) && Truthy(o.src) && o.src.value == url
  }

  /**
   * The content URL `capture_full_page` navigates to (`""` when none): a
   * content URL found inside the frames, or the `src` of an eligible outer
   * frame; whatever it is, some eligible outer frame yields it.
   */
  function ContentUrl(frames: seq<Outer>): (r: string)
    ensures r == [] || IsContentUrl(r) || exists k :: 0 <= k < |frames| && IsFallback(frames[k], r)
    ensures r == [] || exists k :: 0 <= k < |frames| && OuterYields(frames[k], r)
    ensures r != [] <==> exists k, u :: 0 <= k < |frames| && OuterYields(frames[k], u)
  {
    ScanOuter(frames, [])
  }

  // ---------------------------------------------------------------------------
  // Behaviour when no content URL exists

  predicate NoContentMiddle(m: Middle)
  {
    && (forall k :: 0 <= k < |m.inner| ==> !(Truthy(m.inner[k].src) && IsContentUrl(m.inner[k].src.value)))
    && !IsContentUrl(m.location)
  }

  predicate NoContent(frames: seq<Outer>)
  {
    forall k, j :: 0 <= k < |frames| && 0 <= j < |frames[k].middle| ==> NoContentMiddle(frames[k].middle[j])
  }

  /** The `src` of the first eligible outer frame that has one, or `""`. */
  function FirstOuterSrc(frames: seq<Outer>): string
  {
    if frames == [] then []
    else if frames[0].displayed && frames[0].height > MinFrameHeight && Truthy(frames[0].src) then frames[0].src.value
    else FirstOuterSrc(frames[1..])
  }

  lemma {:induction false} ScanMiddleNoContent(frames: seq<Middle>, found: string)
    requires forall j :: 0 <= j < |frames| ==> NoContentMiddle(frames[j])
    ensures ScanMiddle(frames, found) == found
  {
    if frames != [] {
      var m := frames[0];
      assert NoContentMiddle(m);
      assert FirstContentInner(m.inner).None?;
      assert forall j :: 1 <= j < |frames| ==> frames[1..][j - 1] == frames[j];
      ScanMiddleNoContent(frames[1..], found);
    }
  }

  lemma {:induction false} ScanOuterNoContent(frames: seq<Outer>, found: string)
    requires NoContent(frames)
    ensures ScanOuter(frames, found) == if found != [] then found else FirstOuterSrc(frames)
  {
    if frames != [] {
      var o := frames[0];
      assert forall j :: 0 <= j < |o.middle| ==> NoContentMiddle(o.middle[j]);
      ScanMiddleNoContent(o.middle, found);
      assert NoContent(frames[1..]) by {
        forall k, j | 0 <= k < |frames[1..]| && 0 <= j < |frames[1..][k].middle|
          ensures NoContentMiddle(frames[1..][k].middle[j])
        {
          assert frames[1..][k] == frames[k + 1];
        }
      }
      if o.displayed && o.height > MinFrameHeight {
        ScanOuterNoContent(frames[1..], if Truthy(o.src) then o.src.value else found);
      } else {
        ScanOuterNoContent(frames[1..], found);
      }
    }
  }

  /**
   * Without any content URL, the first eligible outer frame's `src` is used;
   * without such a `src` either, nothing is found.
   */
  lemma ContentUrlFallsBackToOuterSrc(frames: seq<Outer>)
    requires NoContent(frames)
    ensures ContentUrl(frames) == FirstOuterSrc(frames)
  {
    ScanOuterNoContent(frames, []);
  }

  /** A content iframe inside the first outer frame's first eligible middle frame wins over any fallback. */
  lemma ContentInnerWins(o: Outer, rest: seq<Outer>, url: string)
    requires o.displayed && o.height > MinFrameHeight
    requires |o.middle| > 0 && o.middle[0].displayed && o.middle[0].height > MinFrameHeight
    requires FirstContentInner(o.middle[0].inner) == Some(url)
    ensures ContentUrl([o] + rest) == url
  {
    assert ([o] + rest)[0] == o;
  }

  /**
   * Once an outer frame's `src` is the fallback, the next eligible outer
   * frame only gets its first eligible middle frame's iframes checked: that
   * middle frame's own content location is not consulted, and the search
   * stops there.
   */
  lemma FallbackSkipsLaterLocations(o1: Outer, m: Middle, o2: Outer)
    requires o1.displayed && o1.height > MinFrameHeight && Truthy(o1.src) && o1.middle == []
    requires o2.displayed && o2.height > MinFrameHeight && o2.middle == [m]
    requires m.displayed && m.height > MinFrameHeight && FirstContentInner(m.inner).None?
    requires IsContentUrl(m.location)
    ensures ContentUrl([o1, o2]) == o1.src.value
  {
    var src := o1.src.value;
    assert ScanMiddle(o1.middle, []) == [];
    assert [o1, o2][1..] == [o2];
    assert ScanMiddle([m], src) == src;
    assert ScanOuter([o2], src) == src;
  }

  // ---------------------------------------------------------------------------
  // The capture

  /** `{timestamp}_{clean_name}_content.pdf`. */
  function ContentFile(stamp: string, cleanName: string): string
  {
    stamp + "_" + cleanName + "_content.pdf"
  }

  /** The content PDF's name reads back as its timestamp and clean page name. */
  lemma ContentFileParts(stamp: string, cleanName: string)
    ensures var r := ContentFile(stamp, cleanName);
      |r| == |stamp| + |cleanName| + 13
      && r[..|stamp|] == stamp && r[|stamp|] == '_'
      && r[|stamp| + 1..|r| - 12] == cleanName
      && r[|r| - 12..] == "_content.pdf"
  {
    var r := ContentFile(stamp, cleanName);
    assert r[..|stamp|] == stamp;
    assert r[|stamp| + 1..|r| - 12] == cleanName;
  }

  /**
   * `capture_full_page`: no entry without a content URL or when printing to
   * PDF fails, otherwise one entry for the printed content, titled
   * `driver.title or "Page"` and carrying the content URL.
   */
  function CaptureFullPage(frames: seq<Outer>, driverTitle: string, printed: bool, stamp: string)
    : (r: seq<Session.Entry>)
    ensures |r| <= 1
    ensures ContentUrl(frames) == [] ==> r == []
    ensures |r| == 1 <==> ContentUrl(frames) != [] && printed
    ensures |r| == 1 ==> r[0].url == ContentUrl(frames) && r[0].title == Some(Names.DisplayTitle(driverTitle))
    ensures |r| == 1 ==> r[0].path == ContentFile(stamp, Names.CleanName(Names.DisplayTitle(driverTitle)))
    ensures |r| == 1 ==> r[0].width.None? && r[0].height.None?
  {
    var url := ContentUrl(frames);
    if url == [] || !printed then []
    else
      var title := Names.DisplayTitle(driverTitle);
      [Session.Entry(ContentFile(stamp, Names.CleanName(title)), Some(title), url, None, None)]
  }

  /** With no content URL and no outer `src`, a capture adds nothing to the session. */
  lemma NoSourceCapturesNothing(frames: seq<Outer>, driverTitle: string, printed: bool, stamp: string)
    requires NoContent(frames) && FirstOuterSrc(frames) == []
    ensures CaptureFullPage(frames, driverTitle, printed, stamp) == []
  {
    ContentUrlFallsBackToOuterSrc(frames);
  }
}

=== FILE: layout.dfy ===
/**
 * The PDF assembly of `create_ocr_pdf` and `create_simple_pdf`: page size in
 * points, the pixel-to-point scale, where each invisible OCR word is anchored
 * and at what font size, and which pages come out in which order.
 *
 * Image decoding, the OCR engine and the PDF library are parameters: each
 * input image says whether it decodes (and its pixel size), whether
 * embedding it in the page succeeds, and what the OCR engine returns for it.
 * Geometry is exact rational arithmetic (`real`).
 */
module Layout {
  import opened Wrappers
  import Ocr

  /** The DPI setting; only positive values are modelled. */
  type Dpi = d: int | d > 0 witness 96

  /** DPI used when the configuration has none. */
  const DefaultDpi: Dpi := 96

  /** PDF points per inch. */
  const PointsPerInch := 72

  /** A pixel dimension of a decoded image. */
  type Px = n: int | n > 0 witness 1

  /** Bounds on the font size of the invisible words. */
  const MinFont: real := 6.0
  const MaxFont: real := 14.0

  /** `config.PDF_SETTINGS.get("dpi", 96)`. */
  function EffectiveDpi(configured: Option<Dpi>): (d: Dpi)
    ensures configured.None? ==> d == DefaultDpi
    ensures configured.Some? ==> d == configured.value
  {
    configured.GetOr(DefaultDpi)
  }

  /** `px * 72 / dpi`: a pixel length in PDF points. */
  function Points(px: int, dpi: Dpi): (r: real)
    ensures r * (dpi as real) == (px as real) * (PointsPerInch as real)
    ensures px > 0 ==> r > 0.0
  {
    (px as real) * (PointsPerInch as real) / (dpi as real)
  }

  /** `width_pt / img_width`: the scale from pixels to points, the same for every image size. */
  function Scale(px: Px, dpi: Dpi): (s: real)
    ensures s == (PointsPerInch as real) / (dpi as real)
    ensures s > 0.0
  {
    Points(px, dpi) / (px as real)
  }

  /** `max(6, min(h * 0.9, 14))`. */
  function FontSize(h: real): (f: real)
    ensures MinFont <= f <= MaxFont
    ensures MinFont <= 0.9 * h <= MaxFont ==> f == 0.9 * h
    ensures 0.9 * h < MinFont ==> f == MinFont
    ensures 0.9 * h > MaxFont ==> f == MaxFont
  {
    var m := if 0.9 * h <= MaxFont then 0.9 * h else MaxFont;
    if MinFont >= m then MinFont else m
  }

  /** One invisible word: its text, anchor point and font size. */
  datatype TextRun = TextRun(text: string, x: real, y: real, fontSize: real)

  /**
   * A token's run: the box's top-left corner scaled into points, moved down
   * by 0.8 of the scaled box height to approximate the baseline.
   */
  function RunFor(t: Ocr.OcrToken, scaleX: real, scaleY: real): (run: TextRun)
    ensures run.text == t.text
    ensures run.x == (t.x as real) * scaleX
    ensures run.y == (t.y as real) * scaleY + 0.8 * ((t.height as real) * scaleY)
    ensures MinFont <= run.fontSize <= MaxFont
  {
    var h := (t.height as real) * scaleY;
    TextRun(t.text, (t.x as real) * scaleX, (t.y as real) * scaleY + h * 0.8, FontSize(h))
  }

  /** For boxes of equal height, the lower box on the image gets the lower anchor on the page. */
  lemma RunAnchorMonotone(a: Ocr.OcrToken, b: Ocr.OcrToken, scale: real)
    requires scale > 0.0
    requires a.height == b.height && a.y < b.y
    ensures RunFor(a, scale, scale).y < RunFor(b, scale, scale).y
  {
    assert (a.y as real) * scale < (b.y as real) * scale;
  }

  /** A 100x20 box at the origin, scaled by 0.75, anchors at (0, 12) with a 13.5-point font. */
  lemma RunExample(text: string)
    ensures RunFor(Ocr.OcrToken(text, 0, 0, 100, 20, 90), 0.75, 0.75) == TextRun(text, 0.0, 12.0, 13.5)
  {
  }

  function Runs(tokens: seq<Ocr.OcrToken>, scaleX: real, scaleY: real): (r: seq<TextRun>)
    ensures |r| == |tokens|
    ensures forall k :: 0 <= k < |r| ==> r[k] == RunFor(tokens[k], scaleX, scaleY)
  {
    if tokens == [] then [] else [RunFor(tokens[0], scaleX, scaleY)] + Runs(tokens[1..], scaleX, scaleY)
  }

  /** One input image as the PDF builder meets it. */
  datatype ImageInput = ImageInput(
    file: string,
    size: Option<(Px, Px)>,
    embedOk: bool,
    ocr: Option<seq<Ocr.RawToken>>)

  /** One output page: size in points, whether the image made it in, and its text layer. */
  datatype Page = Page(file: string, widthPt: real, heightPt: real, hasImage: bool, runs: seq<TextRun>)

  /**
   * The body of the per-image `try` in `create_ocr_pdf`. An image that does
   * not decode gives no page. A page is created before the image is
   * embedded, so an embedding failure leaves a page without image or text.
   * Otherwise the page carries one run per kept OCR token, in OCR order.
   */
  function OcrPage(img: ImageInput, dpi: Dpi): (p: Option<Page>)
    ensures img.size.None? <==> p.None?
    ensures p.Some? ==> p.value.file == img.file
    ensures p.Some? ==> p.value.widthPt == Points(img.size.value.0, dpi)
                        && p.value.heightPt == Points(img.size.value.1, dpi)
    ensures p.Some? ==> p.value.hasImage == img.embedOk
    ensures p.Some? && !img.embedOk ==> p.value.runs == []
    ensures p.Some? && img.embedOk ==> |p.value.runs| == |Ocr.GetOcrData(img.ocr)|
  {
    match img.size
    case None => None
    case Some((w, h)) =>
      var widthPt, heightPt := Points(w, dpi), Points(h, dpi);
      if !img.embedOk then Some(Page(img.file, widthPt, heightPt, false, []))
      else
        var tokens := Ocr.GetOcrData(img.ocr);
        var runs := if tokens == [] then [] else Runs(tokens, widthPt / (w as real), heightPt / (h as real));
        Some(Page(img.file, widthPt, heightPt, true, runs))
  }

  /** The run geometry depends only on the DPI, not on the image's pixel size. */
  lemma OcrPageRunsUseDpiScale(img: ImageInput, dpi: Dpi, k: nat)
    requires img.size.Some? && img.embedOk
    requires k < |OcrPage(img, dpi).value.runs|
    ensures var s := (PointsPerInch as real) / (dpi as real);
            OcrPage(img, dpi).value.runs[k] == RunFor(Ocr.GetOcrData(img.ocr)[k], s, s)
  {
    var w, h := img.size.value.0, img.size.value.1;
    assert Points(w, dpi) / (w as real) == Scale(w, dpi);
    assert Points(h, dpi) / (h as real) == Scale(h, dpi);
  }

  /** The per-image step of `create_simple_pdf`: the same page without a text layer. */
  function SimplePage(img: ImageInput, dpi: Dpi): (p: Option<Page>)
    ensures img.size.None? <==> p.None?
    ensures p.Some? ==> p.value.runs == []
  {
    match img.size
    case None => None
    case Some((w, h)) => Some(Page(img.file, Points(w, dpi), Points(h, dpi), img.embedOk, []))
  }

  /** Pages of a sequence of images: the per-image results, in input order, skipping failures. */
  function Collect(images: seq<ImageInput>, dpi: Dpi, ocr: bool): (r: seq<Page>)
    ensures |r| <= |images|
  {
    if images == [] then []
    else
      var last := images[|images| - 1];
      var p := if ocr then OcrPage(last, dpi) else SimplePage(last, dpi);
      Collect(images[..|images| - 1], dpi, ocr) + (if p.Some? then [p.value] else [])
  }

  /** The images that decode, in input order. */
  function Decodable(images: seq<ImageInput>): (r: seq<ImageInput>)
    ensures |r| <= |images|
    ensures forall k :: 0 <= k < |r| ==> r[k].size.Some?
  {
    if images == [] then []
    else
      var last := images[|images| - 1];
      Decodable(images[..|images| - 1]) + (if last.size.Some? then [last] else [])
  }

  /**
   * `create_ocr_pdf`'s pages: one per image that decodes, in input order,
   * each the per-image OCR step at the configured DPI (96 when unset).
   */
  function CreateOcrPdf(images: seq<ImageInput>, configuredDpi: Option<Dpi>): (r: seq<Page>)
    ensures |r| == |Decodable(images)| <= |images|
    ensures forall k :: 0 <= k < |r| ==> OcrPage(Decodable(images)[k], EffectiveDpi(configuredDpi)) == Some(r[k])
  {
    CollectPerImage(images, EffectiveDpi(configuredDpi), true);
    Collect(images, EffectiveDpi(configuredDpi), true)
  }

  /**
   * `create_simple_pdf`'s pages: one per image that decodes, in input order,
   * each without a text layer.
   */
  function CreateSimplePdf(images: seq<ImageInput>, configuredDpi: Option<Dpi>): (r: seq<Page>)
    ensures |r| == |Decodable(images)| <= |images|
    ensures forall k :: 0 <= k < |r| ==> SimplePage(Decodable(images)[k], EffectiveDpi(configuredDpi)) == Some(r[k])
    ensures forall k :: 0 <= k < |r| ==> r[k].runs == []
  {
    CollectPerImage(images, EffectiveDpi(configuredDpi), false);
    Collect(images, EffectiveDpi(configuredDpi), false)
  }

  /** Page `k` is the per-image step applied to the `k`-th image that decodes. */
  lemma {:induction false} CollectPerImage(images: seq<ImageInput>, dpi: Dpi, ocr: bool)
    ensures var r, d := Collect(images, dpi, ocr), Decodable(images);
            && |r| == |d|
            && forall k :: 0 <= k < |r| ==> (if ocr then OcrPage(d[k], dpi) else SimplePage(d[k], dpi)) == Some(r[k])
  {
    if images != [] {
      CollectPerImage(images[..|images| - 1], dpi, ocr);
    }
  }

  /**
   * Pages come out in input order: page `k` belongs to the `k`-th image that
   * decodes and has that image's size in points; images that do not decode
   * are skipped without disturbing the others.
   */
  lemma {:induction false} PagesFollowDecodableImages(images: seq<ImageInput>, dpi: Dpi, ocr: bool)
    ensures var r := Collect(images, dpi, ocr);
            && |r| == |Decodable(images)|
            && forall k :: 0 <= k < |r| ==>
                 && r[k].file == Decodable(images)[k].file
                 && r[k].widthPt == Points(Decodable(images)[k].size.value.0, dpi)
                 && r[k].heightPt == Points(Decodable(images)[k].size.value.1, dpi)
                 && r[k].hasImage == Decodable(images)[k].embedOk
  {
    if images != [] {
      PagesFollowDecodableImages(images[..|images| - 1], dpi, ocr);
    }
  }

  /** Building from two batches gives the pages of the first batch followed by those of the second. */
  lemma {:induction false} CollectAppend(a: seq<ImageInput>, b: seq<ImageInput>, dpi: Dpi, ocr: bool)
    ensures Collect(a + b, dpi, ocr) == Collect(a, dpi, ocr) + Collect(b, dpi, ocr)
    decreases |b|
  {
    if b == [] {
      assert a + b == a;
    } else {
      var b' := b[..|b| - 1];
      assert (a + b)[..|a + b| - 1] == a + b';
      CollectAppend(a, b', dpi, ocr);
    }
  }

  /** The simple PDF has the same pages as the OCR PDF, minus the text layers. */
  lemma {:induction false} SimpleIsOcrWithoutText(images: seq<ImageInput>, dpi: Dpi)
    ensures var o, s := Collect(images, dpi, true), Collect(images, dpi, false);
            && |o| == |s|
            && forall k :: 0 <= k < |s| ==> s[k] == o[k].(runs := [])
  {
    if images != [] {
      SimpleIsOcrWithoutText(images[..|images| - 1], dpi);
    }
  }
}

=== FILE: names.dfy ===
/**
 * The file-name sanitisers of the capture scripts: `clean_name` in both
 * capture scripts and `safe_title` / `safe_chapter` in the chapter scraper,
 * plus the page-title fallback they start from.
 */
module Names {
  import opened Text

  const CleanNameLimit := 40
  const SafeTitleLimit := 30
  const SafeChapterLimit := 50

  /** `driver.title or "Page"`: an empty browser title falls back to "Page". */
  function DisplayTitle(title: string): (r: string)
    ensures r != []
    ensures title != [] ==> r == title
  {
    if title == [] then "Page" else title
  }

  /** Sanitised, truncated and stripped name, before the "page" fallback. */
  function CleanCore(title: string): (r: string)
    ensures |r| <= CleanNameLimit
    ensures AllNameChars(r) && IsStripped(r)
  {
    var t := Take(KeepNameChars(title), CleanNameLimit);
    var r := Strip(t);
    assert forall k :: 0 <= k < |r| ==> r[k] == t[StripOffset(t) + k];
    r
  }

  /**
   * `clean_name`: keep only `[\w\s-]`, cut to 40 characters, strip, and fall
   * back to "page" when nothing is left.
   */
  function CleanName(title: string): (r: string)
    ensures r != [] && |r| <= CleanNameLimit
    ensures AllNameChars(r) && IsStripped(r)
    ensures CleanCore(title) != [] ==> r == CleanCore(title)
    ensures CleanCore(title) == [] ==> r == "page"
  {
    var c := CleanCore(title);
    if c == [] then "page" else c
  }

  /**
   * A name the sanitiser already produced comes back unchanged, and the
   * fallback "page" is itself a fixed point.
   */
  lemma CleanNameIdempotent(title: string)
    ensures CleanName(CleanName(title)) == CleanName(title)
  {
    var r := CleanName(title);
    assert KeepNameChars(r) == r;
    assert Take(r, CleanNameLimit) == r;
    assert CleanCore(r) == r;
  }

  /** A title that is already a clean name is kept as it is. */
  lemma CleanNameKeepsCleanTitles(title: string)
    requires title != [] && |title| <= CleanNameLimit
    requires AllNameChars(title) && IsStripped(title)
    ensures CleanName(title) == title
  {
    assert KeepNameChars(title) == title;
    assert Take(title, CleanNameLimit) == title;
  }

  /** A title with no name characters at all becomes "page". */
  lemma CleanNameFallback(title: string)
    requires forall k :: 0 <= k < |title| ==> !IsNameChar(title[k]) || IsSpace(title[k])
    ensures CleanName(title) == "page"
  {
    var t := Take(KeepNameChars(title), CleanNameLimit);
    KeepOnlySpaces(title);
    assert AllSpace(t);
  }

  /**
   * The cut comes before the strip: forty spaces ahead of a word leave
   * nothing once stripped, so the word is lost and "page" is used.
   */
  lemma CleanNameCutBeforeStrip()
    ensures CleanName(seq(CleanNameLimit, _ => ' ') + "abc") == "page"
  {
    var title := seq(CleanNameLimit, _ => ' ') + "abc";
    KeepNameCharsAppend(seq(CleanNameLimit, _ => ' '), "abc");
    KeepOnlySpaces(seq(CleanNameLimit, _ => ' '));
    assert AllSpace(Take(KeepNameChars(title), CleanNameLimit));
  }

  lemma {:induction false} KeepOnlySpaces(s: string)
    requires forall k :: 0 <= k < |s| ==> !IsNameChar(s[k]) || IsSpace(s[k])
    ensures AllSpace(KeepNameChars(s))
  {
    if s != [] {
      KeepOnlySpaces(s[1..]);
    }
  }

  /**
   * `re.sub(r'[^\w\s-]', '', t)[:limit]` with no strip and no fallback: the
   * result is the longest prefix of the sanitised title that fits.
   */
  function Sanitised(title: string, limit: nat): (r: string)
    ensures |r| <= limit && AllNameChars(r)
    ensures r <= KeepNameChars(title)
    ensures |KeepNameChars(title)| <= limit ==> r == KeepNameChars(title)
    ensures |KeepNameChars(title)| > limit ==> |r| == limit
  {
    Take(KeepNameChars(title), limit)
  }

  /** `safe_title`, the section part of a screenshot file name. */
  function SafeTitle(sectionTitle: string): (r: string)
    ensures |r| <= SafeTitleLimit && AllNameChars(r)
    ensures r <= KeepNameChars(sectionTitle)
  {
    Sanitised(sectionTitle, SafeTitleLimit)
  }

  /** `safe_chapter`, the stem of the chapter PDF's file name. */
  function SafeChapter(chapterTitle: string): (r: string)
    ensures |r| <= SafeChapterLimit && AllNameChars(r)
    ensures r <= KeepNameChars(chapterTitle)
  {
    Sanitised(chapterTitle, SafeChapterLimit)
  }

  /** Unlike `clean_name`, the scraper's sanitisers may return an empty or space-padded name. */
  lemma SafeNamesHaveNoFallback()
    ensures SafeTitle("") == "" && SafeChapter("?!") == ""
    ensures SafeTitle(" a") == " a"
  {
    assert KeepNameChars("!") == "";
    assert KeepNameChars("?!") == "";
    assert KeepNameChars("a") == "a";
    assert KeepNameChars(" a") == " a";
  }
}

=== FILE: ocr.dfy ===
/**
 * Normalisation of the OCR engine's output (`get_ocr_data` and
 * `get_ocr_text`). The engine itself is a parameter: its word table for one
 * image, or `None` when opening the image or running the engine raised.
 */
module Ocr {
  import opened Wrappers
  import opened Text

  /** Tokens need a confidence strictly above this to be kept. */
  const MinConfidence := 30

  /**
   * One row of the engine's word table. `conf` is the result of `int(conf)`:
   * `None` when that conversion raises.
   */
  datatype RawToken = RawToken(text: string, conf: Option<int>, left: int, top: int, width: int, height: int)

  /** A kept token: stripped text, pixel-space box and confidence. */
  datatype OcrToken = OcrToken(text: string, x: int, y: int, width: int, height: int, conf: int)

  predicate Converts(t: RawToken)
  {
    t.conf.Some?
  }

  predicate AllConvert(raw: seq<RawToken>)
  {
    forall i :: 0 <= i < |raw| ==> Converts(raw[i])
  }

  /** `if text and conf > 30`, on the stripped text. */
  predicate Keeps(t: RawToken)
    requires Converts(t)
  {
    Strip(t.text) != [] && t.conf.value > MinConfidence
  }

  /** The dictionary appended for a kept token: fields copied, text stripped. */
  function Normalise(t: RawToken): (k: OcrToken)
    requires Converts(t)
    ensures k.text == Strip(t.text) && k.conf == t.conf.value
    ensures k.x == t.left && k.y == t.top && k.width == t.width && k.height == t.height
  {
    OcrToken(Strip(t.text), t.left, t.top, t.width, t.height, t.conf.value)
  }

  /** The filtering loop over the word table, in engine order. */
  function FilterTokens(raw: seq<RawToken>): (r: seq<OcrToken>)
    requires AllConvert(raw)
    ensures |r| <= |raw|
    ensures forall k :: 0 <= k < |r| ==> r[k].text != [] && IsStripped(r[k].text) && r[k].conf > MinConfidence
  {
    if raw == [] then []
    else
      var last := raw[|raw| - 1];
      var init := raw[..|raw| - 1];
      assert forall i :: 0 <= i < |init| ==> init[i] == raw[i];
      var kept := FilterTokens(init);
      var tail := if Keeps(last) then [Normalise(last)] else [];
      assert forall k :: 0 <= k < |tail| ==> tail[k].text != [] && IsStripped(tail[k].text) && tail[k].conf > MinConfidence;
      kept + tail
  }

  /** Filtering distributes over concatenation: kept tokens keep the engine's order. */
  lemma {:induction false} FilterTokensAppend(a: seq<RawToken>, b: seq<RawToken>)
    requires AllConvert(a) && AllConvert(b)
    ensures AllConvert(a + b)
    ensures FilterTokens(a + b) == FilterTokens(a) + FilterTokens(b)
    decreases |b|
  {
    if b == [] {
      assert a + b == a;
    } else {
      var b' := b[..|b| - 1];
      assert (a + b)[..|a + b| - 1] == a + b';
      FilterTokensAppend(a, b');
    }
  }

  /** A single token is kept, normalised, exactly when it passes the test. */
  lemma FilterTokensSingle(t: RawToken)
    requires Converts(t)
    ensures FilterTokens([t]) == if Keeps(t) then [Normalise(t)] else []
  {
    assert [t][..0] == [];
  }

  /**
   * `get_ocr_data`: `[]` when the engine failed or some confidence did not
   * convert (the exception discards any partial result), otherwise the kept
   * tokens.
   */
  function GetOcrData(engine: Option<seq<RawToken>>): (r: seq<OcrToken>)
    ensures engine.None? ==> r == []
    ensures engine.Some? && !AllConvert(engine.value) ==> r == []
    ensures engine.Some? && AllConvert(engine.value) ==> r == FilterTokens(engine.value)
  {
    match engine
    case None => []
    case Some(raw) => if AllConvert(raw) then FilterTokens(raw) else []
  }

  /** The confidence cut-off: 30 is dropped, 31 is kept, blank text is dropped at any confidence. */
  lemma ConfidenceBoundary(x: int, y: int, w: int, h: int)
    ensures GetOcrData(Some([RawToken("a", Some(30), x, y, w, h)])) == []
    ensures GetOcrData(Some([RawToken("a", Some(31), x, y, w, h)])) == [OcrToken("a", x, y, w, h, 31)]
    ensures GetOcrData(Some([RawToken(" ", Some(99), x, y, w, h)])) == []
  {
    ConfidenceThirtyDropped(x, y, w, h);
    ConfidenceThirtyOneKept(x, y, w, h);
    BlankTextDropped(x, y, w, h);
  }

  /** A confidence of exactly 30 is not above the cut-off. */
  lemma ConfidenceThirtyDropped(x: int, y: int, w: int, h: int)
    ensures GetOcrData(Some([RawToken("a", Some(30), x, y, w, h)])) == []
  {
    FilterTokensSingle(RawToken("a", Some(30), x, y, w, h));
  }

  /** A confidence of 31 with non-blank text is kept, text stripped. */
  lemma ConfidenceThirtyOneKept(x: int, y: int, w: int, h: int)
    ensures GetOcrData(Some([RawToken("a", Some(31), x, y, w, h)])) == [OcrToken("a", x, y, w, h, 31)]
  {
    var t := RawToken("a", Some(31), x, y, w, h);
    assert AllConvert([t]);
    StripExamples();
    assert Keeps(t);
    assert Normalise(t) == OcrToken("a", x, y, w, h, 31);
    FilterTokensSingle(t);
  }

  /** Text that strips to nothing is dropped whatever its confidence. */
  lemma BlankTextDropped(x: int, y: int, w: int, h: int)
    ensures GetOcrData(Some([RawToken(" ", Some(99), x, y, w, h)])) == []
  {
    StripExamples();
    FilterTokensSingle(RawToken(" ", Some(99), x, y, w, h));
  }

  lemma StripExamples()
    ensures Strip("a") == "a" && Strip(" ") == []
  {
    assert IsStripped("a");
    assert " "[1..] == [];
    assert LeadingSpaces(" ") == 1;
  }

  /** `get_ocr_text`: the engine's text stripped, or "" when it raised. */
  function GetOcrText(engine: Option<string>): (r: string)
    ensures IsStripped(r)
    ensures engine.None? ==> r == []
    ensures engine.Some? ==> r == Strip(engine.value)
  {
    match engine
    case None => []
    case Some(text) => Strip(text)
  }
}

=== FILE: scroll_plan.dfy ===
/**
 * The fixed-count scroll plan of the chapter scraper's
 * `capture_page_screenshots`: how many screenshots to take for a content
 * area, at which scroll offsets, and when the loop stops early because the
 * window reports it has reached the bottom.
 *
 * The browser is abstracted away: the content area's `scrollHeight` and
 * `clientHeight` are parameters (`None` for a JavaScript `null`), as are the
 * window's maximum scroll offset (`document.body.scrollHeight -
 * window.innerHeight`) and `offsetAfter(pos)`, the `window.pageYOffset` the
 * browser reports after `window.scrollTo(0, pos)`.
 */
module ScrollPlan {
  import opened Wrappers
  import Text
  import Names

  /** Viewport height assumed when the client height is 0 or missing. */
  const DefaultViewport := 800

  /** `client_height or 800`. */
  function Viewport(clientHeight: Option<int>): (v: int)
    ensures v != 0
    ensures clientHeight.None? || clientHeight == Some(0) ==> v == DefaultViewport
    ensures clientHeight.Some? && clientHeight.value != 0 ==> v == clientHeight.value
  {
    match clientHeight
    case None => DefaultViewport
    case Some(h) => if h == 0 then DefaultViewport else h
  }

  /** Python's floor division `a // b`. */
  function FloorDiv(a: int, b: int): (q: int)
    requires b != 0
    ensures b > 0 ==> b * q <= a < b * q + b
    ensures b < 0 ==> b * q >= a > b * q + b
  {
    if b > 0 then a / b else (-a) / (-b)
  }

  /**
   * `max(1, (scroll_height // viewport_height) + 1)`: at least one
   * screenshot, and for a non-negative height and a positive viewport exactly
   * as many viewports as it takes to cover the height with room to spare.
   */
  function ScreenshotCount(scrollHeight: int, clientHeight: Option<int>): (n: int)
    ensures n >= 1
    ensures var v := Viewport(clientHeight);
            scrollHeight >= 0 && v > 0 ==> (n - 1) * v <= scrollHeight < n * v
  {
    var v := Viewport(clientHeight);
    var q := FloorDiv(scrollHeight, v);
    if q + 1 >= 1 then q + 1 else 1
  }

  /** One planned screenshot: its 0-based number and the scroll offset it is taken at. */
  datatype PlannedShot = PlannedShot(index: nat, scrollPos: int)

  /** The bottom check after screenshot `i`: the window could not scroll past `maxScroll`. */
  predicate AtBottom(offsetAfter: int -> int, maxScroll: int, pos: int)
  {
    offsetAfter(pos) >= maxScroll
  }

  /**
   * The loop `for i in range(n)` from `i` on: take screenshot `i` at offset
   * `i * v`, then stop if the window reports the bottom. The result is the
   * shots `i .. k` where `k` is the first shot at the bottom, or `n - 1`.
   */
  function ShotsFrom(n: int, v: int, maxScroll: int, offsetAfter: int -> int, i: nat): (r: seq<PlannedShot>)
    requires i < n
    ensures 1 <= |r| <= n - i
    ensures forall k :: 0 <= k < |r| ==> r[k] == PlannedShot(i + k, (i + k) * v)
    ensures forall k :: 0 <= k < |r| - 1 ==> !AtBottom(offsetAfter, maxScroll, r[k].scrollPos)
    ensures i + |r| == n || AtBottom(offsetAfter, maxScroll, (i + |r| - 1) * v)
    decreases n - i
  {
    var here := [PlannedShot(i, i * v)];
    if i + 1 < n && !AtBottom(offsetAfter, maxScroll, i * v) then
      var rest := ShotsFrom(n, v, maxScroll, offsetAfter, i + 1);
      assert forall k :: 1 <= k < 1 + |rest| ==> (here + rest)[k] == rest[k - 1];
      here + rest
    else
      here
  }

  /** The screenshots `capture_page_screenshots` takes, in order. */
  function Plan(scrollHeight: int, clientHeight: Option<int>, maxScroll: int, offsetAfter: int -> int)
    : (r: seq<PlannedShot>)
    ensures 1 <= |r| <= ScreenshotCount(scrollHeight, clientHeight)
    ensures r[0].scrollPos == 0
    ensures forall k :: 0 <= k < |r| ==> r[k].index == k && r[k].scrollPos == k * Viewport(clientHeight)
  {
    ShotsFrom(ScreenshotCount(scrollHeight, clientHeight), Viewport(clientHeight), maxScroll, offsetAfter, 0)
  }

  /** With a positive viewport the offsets strictly increase. */
  lemma PlanOffsetsIncrease(scrollHeight: int, clientHeight: Option<int>, maxScroll: int, offsetAfter: int -> int,
                            j: nat, k: nat)
    requires Viewport(clientHeight) > 0
    requires j < k < |Plan(scrollHeight, clientHeight, maxScroll, offsetAfter)|
    ensures var r := Plan(scrollHeight, clientHeight, maxScroll, offsetAfter);
            r[j].scrollPos < r[k].scrollPos
  {
    var v := Viewport(clientHeight);
    assert j * v < k * v by {
      assert (k - j) * v > 0;
    }
  }

  /**
   * A window that never reports the bottom gets all the planned screenshots;
   * one that is already at the bottom after the first gets just that one.
   */
  lemma PlanLength(scrollHeight: int, clientHeight: Option<int>, maxScroll: int, offsetAfter: int -> int)
    ensures (forall p :: !AtBottom(offsetAfter, maxScroll, p))
            ==> |Plan(scrollHeight, clientHeight, maxScroll, offsetAfter)| == ScreenshotCount(scrollHeight, clientHeight)
    ensures AtBottom(offsetAfter, maxScroll, 0) ==> |Plan(scrollHeight, clientHeight, maxScroll, offsetAfter)| == 1
  {
  }

  /** The window position a browser reports after `scrollTo(0, pos)`: clamped to `[0, maxScroll]`. */
  function Clamped(maxScroll: int): int -> int
  {
    (pos: int) => if pos <= 0 || maxScroll <= 0 then 0 else if pos >= maxScroll then maxScroll else pos
  }

  /**
   * With a clamping browser and a positive viewport, every screenshot but
   * the last is taken above the bottom and the last one is at or past it
   * unless the planned count ran out first.
   */
  lemma ClampedPlanStopsAtBottom(scrollHeight: int, clientHeight: Option<int>, maxScroll: int)
    requires Viewport(clientHeight) > 0
    ensures var r := Plan(scrollHeight, clientHeight, maxScroll, Clamped(maxScroll));
            && (forall k :: 0 <= k < |r| - 1 ==> r[k].scrollPos < maxScroll)
            && (|r| == ScreenshotCount(scrollHeight, clientHeight) || r[|r| - 1].scrollPos >= maxScroll
                || maxScroll <= 0)
  {
    var r := Plan(scrollHeight, clientHeight, maxScroll, Clamped(maxScroll));
    var n := ScreenshotCount(scrollHeight, clientHeight);
    var v := Viewport(clientHeight);
    assert ShotsFrom(n, v, maxScroll, Clamped(maxScroll), 0) == r;
    forall k | 0 <= k < |r| - 1
      ensures r[k].scrollPos < maxScroll
    {
      assert !AtBottom(Clamped(maxScroll), maxScroll, r[k].scrollPos);
      assert r[k].scrollPos >= 0;
    }
  }

  // ---------------------------------------------------------------------------
  // The screenshot records

  /** A saved screenshot record: `path` (its file name here), `section`, `index`, `scroll_pos`. */
  datatype PageShot = PageShot(file: string, section: string, index: nat, scrollPos: int)

  /** `{safe_title}_{i+1}_{timestamp}.png`. */
  function PageShotFile(sectionTitle: string, index: nat, stamp: string): string
  {
    Names.SafeTitle(sectionTitle) + "_" + Text.Decimal(index + 1) + "_" + stamp + ".png"
  }

  /**
   * A page screenshot name is the safe section title, `_`, the 1-based
   * number, `_`, the timestamp and `.png`: the number reads back from it.
   */
  lemma PageShotFileParts(sectionTitle: string, index: nat, stamp: string)
    ensures var r, safe := PageShotFile(sectionTitle, index, stamp), Names.SafeTitle(sectionTitle);
      |safe| + 2 + |stamp| + 4 < |r|
      && r[..|safe|] == safe && r[|safe|] == '_'
      && r[|r| - |stamp| - 5..] == "_" + stamp + ".png"
      && Text.AllDigits(r[|safe| + 1..|r| - |stamp| - 5])
      && Text.ParseDecimal(r[|safe| + 1..|r| - |stamp| - 5]) == index + 1
  {
    var safe, digits, tail := Names.SafeTitle(sectionTitle), Text.Decimal(index + 1), "_" + stamp + ".png";
    var r := safe + "_" + digits + tail;
    assert r == PageShotFile(sectionTitle, index, stamp);
    assert r[|safe| + 1..|r| - |tail|] == digits;
    assert r[|r| - |tail|..] == tail;
    assert r[..|safe|] == safe;
    Text.DecimalRoundTrip(index + 1);
  }

  function Records(sectionTitle: string, plan: seq<PlannedShot>, clock: nat -> string): (r: seq<PageShot>)
    ensures |r| == |plan|
    ensures forall k :: 0 <= k < |r| ==> r[k].section == sectionTitle && r[k].index == plan[k].index
                                         && r[k].scrollPos == plan[k].scrollPos
    ensures forall k :: 0 <= k < |r| ==> r[k].file == PageShotFile(sectionTitle, plan[k].index, clock(plan[k].index))
  {
    if plan == [] then []
    else
      var p := plan[|plan| - 1];
      Records(sectionTitle, plan[..|plan| - 1], clock) + [PageShot(PageShotFile(sectionTitle, p.index, clock(p.index)), sectionTitle, p.index, p.scrollPos)]
  }

  /**
   * `capture_page_screenshots(section_title)`: one record per planned
   * screenshot, in order, numbered from 0, with offsets `i * viewport`.
   * `clock(i)` is the timestamp text taken when screenshot `i` is saved.
   */
  function CapturePageScreenshots(sectionTitle: string, scrollHeight: int, clientHeight: Option<int>, maxScroll: int,
                                  offsetAfter: int -> int, clock: nat -> string): (r: seq<PageShot>)
    ensures 1 <= |r| <= ScreenshotCount(scrollHeight, clientHeight)
    ensures forall k :: 0 <= k < |r| ==> r[k].section == sectionTitle && r[k].index == k
                                         && r[k].scrollPos == k * Viewport(clientHeight)
    ensures forall k :: 0 <= k < |r| ==> r[k].file == PageShotFile(sectionTitle, k, clock(k))
  {
    Records(sectionTitle, Plan(scrollHeight, clientHeight, maxScroll, offsetAfter), clock)
  }
}

=== FILE: session.dfy ===
/**
 * Bookkeeping of a capture session (the list under `session["screenshots"]`
 * shared by both capture scripts): appending a capture, choosing the files
 * for the PDF build, and the two status views. Loading and saving the session
 * file are left to the caller; whether a file exists is a parameter.
 */
module Session {
  import opened Wrappers
  import opened Text

  /**
   * A session entry. `title`, `width` and `height` are `None` when the
   * entry's dictionary has no such key.
   */
  datatype Entry = Entry(path: string, title: Option<string>, url: string, width: Option<int>, height: Option<int>)

  /** Status views cut titles to this many characters. */
  const StatusTitleLimit := 50

  /** `session["screenshots"].extend(new_screenshots)`. */
  function Extend(entries: seq<Entry>, captured: seq<Entry>): (r: seq<Entry>)
    ensures |r| == |entries| + |captured|
    ensures r[..|entries|] == entries
    ensures r[|entries|..] == captured
    ensures forall k :: |entries| <= k < |r| ==> r[k] == captured[k - |entries|]
  {
    entries + captured
  }

  /** `[s["path"] for s in session["screenshots"] if os.path.exists(s["path"])]`. */
  function ExistingPaths(entries: seq<Entry>, onDisk: string -> bool): (r: seq<string>)
    ensures |r| <= |entries|
    ensures forall k :: 0 <= k < |r| ==> onDisk(r[k])
    ensures (forall k :: 0 <= k < |entries| ==> !onDisk(entries[k].path)) ==> r == []
  {
    if entries == [] then []
    else
      var last := entries[|entries| - 1];
      ExistingPaths(entries[..|entries| - 1], onDisk) + (if onDisk(last.path) then [last.path] else [])
  }

  /** Paths keep session order: the paths of a combined session are those of its parts, concatenated. */
  lemma {:induction false} ExistingPathsAppend(a: seq<Entry>, b: seq<Entry>, onDisk: string -> bool)
    ensures ExistingPaths(a + b, onDisk) == ExistingPaths(a, onDisk) + ExistingPaths(b, onDisk)
    decreases |b|
  {
    if b == [] {
      assert a + b == a;
    } else {
      var b' := b[..|b| - 1];
      assert (a + b)[..|a + b| - 1] == a + b';
      ExistingPathsAppend(a, b', onDisk);
    }
  }

  /** Every entry whose file exists contributes its path. */
  lemma {:induction false} ExistingPathsKeepsExisting(entries: seq<Entry>, onDisk: string -> bool, k: nat)
    requires k < |entries| && onDisk(entries[k].path)
    ensures entries[k].path in ExistingPaths(entries, onDisk)
  {
    var init := entries[..|entries| - 1];
    if k < |init| {
      assert init[k] == entries[k];
      ExistingPathsKeepsExisting(init, onDisk, k);
    }
  }

  /** No path is left exactly when no recorded file exists. */
  lemma ExistingPathsEmptyIff(entries: seq<Entry>, onDisk: string -> bool)
    ensures ExistingPaths(entries, onDisk) == [] <==> forall k :: 0 <= k < |entries| ==> !onDisk(entries[k].path)
  {
    forall k | 0 <= k < |entries| && onDisk(entries[k].path)
      ensures ExistingPaths(entries, onDisk) != []
    {
      ExistingPathsKeepsExisting(entries, onDisk, k);
    }
  }

  /** When every file exists, the paths are exactly the session's paths, in order. */
  lemma {:induction false} ExistingPathsAllPresent(entries: seq<Entry>, onDisk: string -> bool)
    requires forall k :: 0 <= k < |entries| ==> onDisk(entries[k].path)
    ensures |ExistingPaths(entries, onDisk)| == |entries|
    ensures forall k :: 0 <= k < |entries| ==> ExistingPaths(entries, onDisk)[k] == entries[k].path
  {
    if entries != [] {
      var init := entries[..|entries| - 1];
      assert forall k :: 0 <= k < |init| ==> init[k] == entries[k];
      ExistingPathsAllPresent(init, onDisk);
    }
  }

  /** What `generate_pdf` does with a session. */
  datatype PdfBuild =
    | NothingCaptured        // empty session: returns before anything else
    | NoFiles                // no recorded file exists any more
    | Build(paths: seq<string>)  // `create_ocr_pdf` is called with these paths

  /**
   * `generate_pdf`: nothing on an empty session or when no file remains;
   * otherwise a build over the existing files, in session order.
   */
  function GeneratePdf(entries: seq<Entry>, onDisk: string -> bool): (r: PdfBuild)
    ensures entries == [] <==> r == NothingCaptured
    ensures r == NoFiles <==> entries != [] && forall k :: 0 <= k < |entries| ==> !onDisk(entries[k].path)
    ensures r.Build? ==> r.paths != [] && r.paths == ExistingPaths(entries, onDisk)
  {
    ExistingPathsEmptyIff(entries, onDisk);
    if entries == [] then NothingCaptured
    else
      var paths := ExistingPaths(entries, onDisk);
      if paths == [] then NoFiles else Build(paths)
  }

  // ---------------------------------------------------------------------------
  // Status views

  /** `s.get("title", "Unknown")[:50]`. */
  function StatusTitle(e: Entry): (t: string)
    ensures |t| == Min(|e.title.GetOr("Unknown")|, StatusTitleLimit)
    ensures t == e.title.GetOr("Unknown")[..|t|]
    ensures e.title.None? ==> t == "Unknown"
  {
    Take(e.title.GetOr("Unknown"), StatusTitleLimit)
  }

  function StatusTitles(entries: seq<Entry>): (r: seq<string>)
    ensures |r| == |entries|
    ensures forall k :: 0 <= k < |r| ==> r[k] == StatusTitle(entries[k])
  {
    if entries == [] then [] else [StatusTitle(entries[0])] + StatusTitles(entries[1..])
  }

  predicate NoDuplicates(s: seq<string>)
  {
    forall i, j :: 0 <= i < j < |s| ==> s[i] != s[j]
  }

  /** Reference definition: keep each title at its first occurrence. */
  function FirstOccurrences(titles: seq<string>): seq<string>
  {
    if titles == [] then []
    else
      var init := titles[..|titles| - 1];
      FirstOccurrences(init) + (if titles[|titles| - 1] in init then [] else [titles[|titles| - 1]])
  }

  /** The reference keeps exactly the distinct titles, each once. */
  lemma {:induction false} FirstOccurrencesDistinct(titles: seq<string>)
    ensures NoDuplicates(FirstOccurrences(titles))
    ensures forall t :: t in FirstOccurrences(titles) <==> t in titles
  {
    if titles != [] {
      var init := titles[..|titles| - 1];
      FirstOccurrencesDistinct(init);
      assert titles == init + [titles[|titles| - 1]];
    }
  }

  /** One more title extends the reference by that title exactly when it is new. */
  lemma FirstOccurrencesSnoc(titles: seq<string>, t: string)
    ensures FirstOccurrences(titles + [t]) == FirstOccurrences(titles) + (if t in titles then [] else [t])
  {
    assert (titles + [t])[..|titles|] == titles;
  }

  /** Appending `m` copies of one title adds that title once, when it is new and `m > 0`. */
  lemma {:induction false} FirstOccurrencesRepeat(titles: seq<string>, t: string, m: nat)
    ensures FirstOccurrences(titles + seq(m, _ => t))
            == FirstOccurrences(titles) + (if m == 0 || t in titles then [] else [t])
  {
    if m == 0 {
      assert titles + seq(m, _ => t) == titles;
    } else {
      var shorter := titles + seq(m - 1, _ => t);
      assert titles + seq(m, _ => t) == shorter + [t];
      FirstOccurrencesSnoc(shorter, t);
      FirstOccurrencesRepeat(titles, t, m - 1);
      if m > 1 {
        assert shorter[|titles|] == t;
      }
    }
  }

  /**
   * Extending a session with entries that all carry one title adds at most
   * one status line: that title cut to 50 characters, when it is new.
   */
  lemma StatusAfterExtend(entries: seq<Entry>, added: seq<Entry>, title: string)
    requires forall k :: 0 <= k < |added| ==> added[k].title.Some? && added[k].title.value == title
    ensures var t := Take(title, StatusTitleLimit);
            var before := StatusTitles(entries);
            FirstOccurrences(StatusTitles(Extend(entries, added)))
            == FirstOccurrences(before) + (if added == [] || t in before then [] else [t])
  {
    var t := Take(title, StatusTitleLimit);
    var before := StatusTitles(entries);
    var all := StatusTitles(Extend(entries, added));
    assert all == before + seq(|added|, _ => t) by {
      forall k | 0 <= k < |all|
        ensures all[k] == (before + seq(|added|, _ => t))[k]
      {
        if k < |entries| {
          assert Extend(entries, added)[k] == entries[k];
        } else {
          assert Extend(entries, added)[k] == added[k - |entries|];
        }
      }
    }
    FirstOccurrencesRepeat(before, t, |added|);
  }

  /**
   * The title list of `show_status` in the single-page capture script: one
   * line per distinct title, at its first occurrence, tracked with a set of
   * titles already seen.
   */
  method DistinctStatusTitles(entries: seq<Entry>) returns (shown: seq<string>)
    ensures shown == FirstOccurrences(StatusTitles(entries))
    ensures NoDuplicates(shown)
    ensures forall t :: t in shown <==> t in StatusTitles(entries)
  {
    ghost var titles := StatusTitles(entries);
    var seen: set<string> := {};
    shown := [];
    ghost var done: seq<string> := [];
    for i := 0 to |entries|
      invariant done == titles[..i]
      invariant shown == FirstOccurrences(done)
      invariant forall t :: t in seen <==> t in done
    {
      var title := StatusTitle(entries[i]);
      assert titles[..i + 1] == done + [title];
      FirstOccurrencesSnoc(done, title);
      if title !in seen {
        seen := seen + {title};
        shown := shown + [title];
      }
      done := done + [title];
    }
    assert done == titles;
    FirstOccurrencesDistinct(titles);
  }

  /** One side of the full-page status size label: the number, or `?` when the key is missing. */
  function SizePart(n: Option<int>): (s: string)
    ensures s == "?" <==> n.None?
    ensures 'x' !in s
  {
    match n
    case None => "?"
    case Some(v) => IntString(v)
  }

  /** `f"{width}x{height}"` with `?` for a missing side. */
  function SizeLabel(e: Entry): (r: string)
    ensures FirstX(r) == |SizePart(e.width)| < |r|
    ensures r[..FirstX(r)] == SizePart(e.width) && r[FirstX(r) + 1..] == SizePart(e.height)
  {
    var w, h := SizePart(e.width), SizePart(e.height);
    FirstXAfter(w, h);
    assert (w + "x" + h)[..|w|] == w && (w + "x" + h)[|w| + 1..] == h;
    w + "x" + h
  }

  /** Position of the first `x` in `s` (`|s|` when there is none). */
  function FirstX(s: string): (i: nat)
    ensures i <= |s|
  {
    if s == [] || s[0] == 'x' then 0 else 1 + FirstX(s[1..])
  }

  lemma {:induction false} FirstXAfter(a: string, rest: string)
    requires 'x' !in a
    ensures FirstX(a + "x" + rest) == |a|
  {
    if a != [] {
      assert (a + "x" + rest)[1..] == a[1..] + "x" + rest;
      FirstXAfter(a[1..], rest);
    }
  }

  /** The `x` separator cannot be confused with either side. */
  lemma SplitAtSeparator(a: string, b: string, c: string, d: string)
    requires 'x' !in a && 'x' !in c
    requires a + "x" + b == c + "x" + d
    ensures a == c && b == d
  {
    var l, r := a + "x" + b, c + "x" + d;
    FirstXAfter(a, b);
    FirstXAfter(c, d);
    assert a == l[..|a|] && c == r[..|c|];
    assert b == l[|a| + 1..] && d == r[|c| + 1..];
  }

  lemma SizePartInjective(m: Option<int>, n: Option<int>)
    requires SizePart(m) == SizePart(n)
    ensures m == n
  {
    if m.Some? && n.Some? {
      IntStringInjective(m.value, n.value);
    }
  }

  /** The size label is unambiguous: it determines the width and height, missing or not. */
  lemma SizeLabelInjective(e: Entry, f: Entry)
    requires SizeLabel(e) == SizeLabel(f)
    ensures e.width == f.width && e.height == f.height
  {
    SplitAtSeparator(SizePart(e.width), SizePart(e.height), SizePart(f.width), SizePart(f.height));
    SizePartInjective(e.width, f.width);
    SizePartInjective(e.height, f.height);
  }

  /** The status view of the full-page capture script: every entry, in order, with its size label. */
  function FullStatusLines(entries: seq<Entry>): (r: seq<(string, string)>)
    ensures |r| == |entries|
    ensures forall k :: 0 <= k < |r| ==> r[k] == (StatusTitle(entries[k]), SizeLabel(entries[k]))
  {
    if entries == [] then []
    else
      assert forall k :: 1 <= k < |entries| ==> entries[1..][k - 1] == entries[k];
      [(StatusTitle(entries[0]), SizeLabel(entries[0]))] + FullStatusLines(entries[1..])
  }
}

=== FILE: similarity.dfy ===
/**
 * `images_similar` from the scroll-capture script: two screenshots are
 * compared through their 100x100 grayscale thumbnails. A thumbnail is given
 * here as its sequence of luminance values; `None` stands for a screenshot
 * that is missing or that could not be decoded (both make the comparison
 * answer "not similar").
 */
module Similarity {
  import opened Wrappers

  /** One grayscale (PIL mode "L") pixel. */
  type Luma = x: int | 0 <= x <= 255

  type Thumb = seq<Luma>

  /** Pixels whose luminance differs by less than this count as matching. */
  const Tolerance := 10

  /** Default `threshold` argument. */
  const DefaultThreshold: real := 0.98

  /** Pixel count of a 100x100 thumbnail. */
  const ThumbPixels := 100 * 100

  function Abs(x: int): nat
  {
    if x < 0 then -x else x
  }

  predicate PixelsMatch(p: int, q: int)
  {
    Abs(p - q) < Tolerance
  }

  /** `sum(1 for p1, p2 in zip(a, b) if abs(p1 - p2) < 10)`. */
  function Matches(a: Thumb, b: Thumb): (m: nat)
    requires |a| == |b|
    ensures m <= |a|
  {
    if a == [] then 0
    else Matches(a[..|a| - 1], b[..|b| - 1]) + (if PixelsMatch(a[|a| - 1], b[|b| - 1]) then 1 else 0)
  }

  /** `matches / len(pixels1)`: the fraction of matching pixels, always in [0, 1]. */
  function Score(a: Thumb, b: Thumb): (s: real)
    requires |a| == |b| && |a| > 0
    ensures 0.0 <= s <= 1.0
  {
    (Matches(a, b) as real) / (|a| as real)
  }

  /**
   * `images_similar(img1, img2, threshold)`. Missing data, thumbnails of
   * different sizes and empty thumbnails (the division by zero is caught) all
   * answer false; otherwise the score is compared with the threshold.
   */
  function ImagesSimilar(a: Option<Thumb>, b: Option<Thumb>, threshold: real): (r: bool)
    ensures a.None? || b.None? ==> !r
    ensures a.Some? && b.Some? && |a.value| != |b.value| ==> !r
    ensures a.Some? && a.value == [] ==> !r
    ensures r ==> threshold <= 1.0
  {
    if a.None? || b.None? then false
    else if |a.value| != |b.value| then false
    else if |a.value| == 0 then false
    else Score(a.value, b.value) >= threshold
  }

  /**
   * The comparison in terms of the match count: similar exactly when both
   * thumbnails exist, have the same non-zero size, and at least `threshold`
   * times that many pixel pairs match.
   */
  lemma ImagesSimilarIff(a: Option<Thumb>, b: Option<Thumb>, threshold: real)
    ensures ImagesSimilar(a, b, threshold)
            <==> a.Some? && b.Some? && |a.value| == |b.value| > 0
                 && Matches(a.value, b.value) as real >= threshold * (|a.value| as real)
  {
    if a.Some? && b.Some? && |a.value| == |b.value| > 0 {
      QuotientAtLeast(Matches(a.value, b.value) as real, |a.value| as real, threshold);
    }
  }

  lemma QuotientAtLeast(m: real, n: real, t: real)
    requires n > 0.0
    ensures m / n >= t <==> m >= t * n
  {
    assert (m / n) * n == m;
    if m / n >= t {
      assert (m / n) * n >= t * n;
    } else {
      assert (m / n) * n < t * n;
    }
  }

  // ---------------------------------------------------------------------------
  // Facts about the match count

  lemma {:induction false} MatchesSymmetric(a: Thumb, b: Thumb)
    requires |a| == |b|
    ensures Matches(a, b) == Matches(b, a)
  {
    if a != [] {
      MatchesSymmetric(a[..|a| - 1], b[..|b| - 1]);
      var p: int, q: int := a[|a| - 1], b[|b| - 1];
      assert Abs(p - q) == Abs(q - p);
    }
  }

  /** Every pixel matches exactly when the match count is the pixel count. */
  lemma {:induction false} MatchesAllIff(a: Thumb, b: Thumb)
    requires |a| == |b|
    ensures Matches(a, b) == |a| <==> forall i :: 0 <= i < |a| ==> PixelsMatch(a[i], b[i])
  {
    if a != [] {
      var a', b' := a[..|a| - 1], b[..|b| - 1];
      MatchesAllIff(a', b');
      assert forall i :: 0 <= i < |a'| ==> a'[i] == a[i] && b'[i] == b[i];
    }
  }

  /** No pixel matches exactly when the match count is zero. */
  lemma {:induction false} MatchesNoneIff(a: Thumb, b: Thumb)
    requires |a| == |b|
    ensures Matches(a, b) == 0 <==> forall i :: 0 <= i < |a| ==> !PixelsMatch(a[i], b[i])
  {
    if a != [] {
      var a', b' := a[..|a| - 1], b[..|b| - 1];
      MatchesNoneIff(a', b');
      assert forall i :: 0 <= i < |a'| ==> a'[i] == a[i] && b'[i] == b[i];
    }
  }

  // ---------------------------------------------------------------------------
  // Properties of the comparator

  /** Swapping the screenshots does not change the answer (the test uses `abs`). */
  lemma ImagesSimilarSymmetric(a: Option<Thumb>, b: Option<Thumb>, threshold: real)
    ensures ImagesSimilar(a, b, threshold) == ImagesSimilar(b, a, threshold)
  {
    ImagesSimilarIff(a, b, threshold);
    ImagesSimilarIff(b, a, threshold);
    if a.Some? && b.Some? && |a.value| == |b.value| {
      MatchesSymmetric(a.value, b.value);
    }
  }

  /** A non-empty thumbnail is similar to itself at every threshold up to 1. */
  lemma ImagesSimilarReflexive(a: Thumb, threshold: real)
    requires |a| > 0 && threshold <= 1.0
    ensures ImagesSimilar(Some(a), Some(a), threshold)
  {
    ImagesSimilarIff(Some(a), Some(a), threshold);
    MatchesAllIff(a, a);
  }

  /** At threshold 1 the screenshots are similar exactly when every pixel pair matches. */
  lemma ImagesSimilarAtOneIff(a: Thumb, b: Thumb)
    requires |a| == |b| > 0
    ensures ImagesSimilar(Some(a), Some(b), 1.0) <==> forall i :: 0 <= i < |a| ==> PixelsMatch(a[i], b[i])
  {
    ImagesSimilarIff(Some(a), Some(b), 1.0);
    MatchesAllIff(a, b);
  }

  /** A uniform luminance shift of less than the tolerance is similar at every threshold up to 1. */
  lemma UniformShiftIsSimilar(a: Thumb, b: Thumb, shift: int, threshold: real)
    requires |a| == |b| > 0
    requires Abs(shift) < Tolerance
    requires forall i :: 0 <= i < |a| ==> b[i] == a[i] + shift
    requires threshold <= 1.0
    ensures ImagesSimilar(Some(a), Some(b), threshold)
  {
    ImagesSimilarIff(Some(a), Some(b), threshold);
    MatchesAllIff(a, b);
  }

  /** An all-black thumbnail is not similar to an all-white one at any positive threshold. */
  lemma BlackWhiteNotSimilar(a: Thumb, b: Thumb, threshold: real)
    requires |a| == |b|
    requires forall i :: 0 <= i < |a| ==> a[i] == 0 && b[i] == 255
    requires threshold > 0.0
    ensures !ImagesSimilar(Some(a), Some(b), threshold)
  {
    ImagesSimilarIff(Some(a), Some(b), threshold);
    MatchesNoneIff(a, b);
  }

  /** Lowering the threshold never turns "similar" into "not similar". */
  lemma ImagesSimilarMonotone(a: Option<Thumb>, b: Option<Thumb>, t: real, t': real)
    requires t' <= t
    requires ImagesSimilar(a, b, t)
    ensures ImagesSimilar(a, b, t')
  {
    ImagesSimilarIff(a, b, t);
    ImagesSimilarIff(a, b, t');
  }

  /** With full-size thumbnails and the default threshold, 9800 of 10000 pixels must match. */
  lemma DefaultThresholdCount(a: Thumb, b: Thumb)
    requires |a| == |b| == ThumbPixels
    ensures ImagesSimilar(Some(a), Some(b), DefaultThreshold) <==> Matches(a, b) >= 9800
  {
    ImagesSimilarIff(Some(a), Some(b), DefaultThreshold);
  }
}

=== FILE: text.dfy ===
/**
 * String helpers shared by the capture scripts: the character classes of the
 * regular expressions they use, `str.strip`, slicing, substring tests and
 * decimal formatting.
 *
 * Python's `\w`, `\s` and `\d` are Unicode-aware; here they are restricted to
 * ASCII (letters, digits and `_`; the ASCII characters `str.isspace` accepts;
 * `0`-`9`).
 */
module Text {

  /** `\s` and `str.isspace` on ASCII: space, TAB..CR (9-13) and FS..US (28-31). */
  predicate IsSpace(c: char)
  {
    c == ' ' || (9 <= c as int <= 13) || (28 <= c as int <= 31)
  }

  /** `\d` on ASCII. */
  predicate IsDigit(c: char)
  {
    '0' <= c <= '9'
  }

  /** `\w` on ASCII. */
  predicate IsWordChar(c: char)
  {
    IsDigit(c) || ('a' <= c <= 'z') || ('A' <= c <= 'Z') || c == '_'
  }

  /** The characters the class `[\w\s-]` accepts. */
  predicate IsNameChar(c: char)
  {
    IsWordChar(c) || IsSpace(c) || c == '-'
  }

  predicate AllSpace(s: string)
  {
    forall k :: 0 <= k < |s| ==> IsSpace(s[k])
  }

  predicate AllDigits(s: string)
  {
    forall k :: 0 <= k < |s| ==> IsDigit(s[k])
  }

  predicate AllNameChars(s: string)
  {
    forall k :: 0 <= k < |s| ==> IsNameChar(s[k])
  }

  /** No whitespace at either end. */
  predicate IsStripped(s: string)
  {
    s == [] || (!IsSpace(s[0]) && !IsSpace(s[|s| - 1]))
  }

  function Min(a: int, b: int): int
  {
    if a <= b then a else b
  }

  function Max(a: int, b: int): int
  {
    if a <= b then b else a
  }

  // ---------------------------------------------------------------------------
  // Stripping

  /** Number of whitespace characters at the start of `s`. */
  function LeadingSpaces(s: string): (k: nat)
    ensures k <= |s|
    ensures forall j :: 0 <= j < k ==> IsSpace(s[j])
    ensures k < |s| ==> !IsSpace(s[k])
  {
    if s != [] && IsSpace(s[0]) then
      var k := LeadingSpaces(s[1..]);
      assert forall j :: 1 <= j < k + 1 ==> s[j] == s[1..][j - 1];
      k + 1
    else
      0
  }

  /** Number of whitespace characters at the end of `s`. */
  function TrailingSpaces(s: string): (t: nat)
    ensures t <= |s|
    ensures forall j :: |s| - t <= j < |s| ==> IsSpace(s[j])
    ensures t < |s| ==> !IsSpace(s[|s| - 1 - t])
  {
    if s != [] && IsSpace(s[|s| - 1]) then
      TrailingSpaces(s[..|s| - 1]) + 1
    else
      0
  }

  /** How many leading whitespace characters `Strip` removes. */
  function StripOffset(s: string): (k: nat)
    ensures k <= |s|
  {
    LeadingSpaces(s)
  }

  /**
   * `str.strip()`: the result is a contiguous slice of `s`, only whitespace
   * is cut from either end, the result has no surrounding whitespace, and a
   * string that already has none is returned unchanged.
   */
  function Strip(s: string): (r: string)
    ensures IsStripped(r)
    ensures StripOffset(s) + |r| <= |s|
    ensures r == s[StripOffset(s)..StripOffset(s) + |r|]
    ensures forall j :: 0 <= j < StripOffset(s) ==> IsSpace(s[j])
    ensures forall j :: StripOffset(s) + |r| <= j < |s| ==> IsSpace(s[j])
    ensures IsStripped(s) ==> r == s
  {
    var k := LeadingSpaces(s);
    if k == |s| then []
    else
      var e := |s| - TrailingSpaces(s);
      assert k < e;
      s[k..e]
  }

  // ---------------------------------------------------------------------------
  // Slicing and filtering

  /** Python's `s[:n]` for `n >= 0`. */
  function Take(s: string, n: nat): (r: string)
    ensures |r| == Min(|s|, n)
    ensures r <= s
  {
    if |s| <= n then s else s[..n]
  }

  /** `re.sub(r'[^\w\s-]', '', s)`: drop every character outside `[\w\s-]`. */
  function KeepNameChars(s: string): (r: string)
    ensures |r| <= |s|
    ensures AllNameChars(r)
    ensures AllNameChars(s) ==> r == s
  {
    if s == [] then []
    else (if IsNameChar(s[0]) then [s[0]] else []) + KeepNameChars(s[1..])
  }

  /** Filtering distributes over concatenation, so kept characters stay in order. */
  lemma {:induction false} KeepNameCharsAppend(a: string, b: string)
    ensures KeepNameChars(a + b) == KeepNameChars(a) + KeepNameChars(b)
  {
    if a == [] {
      assert a + b == b;
    } else {
      var head := if IsNameChar(a[0]) then [a[0]] else [];
      assert (a + b)[0] == a[0] && (a + b)[1..] == a[1..] + b;
      calc {
        KeepNameChars(a + b);
        head + KeepNameChars(a[1..] + b);
        { KeepNameCharsAppend(a[1..], b); }
        head + (KeepNameChars(a[1..]) + KeepNameChars(b));
        (head + KeepNameChars(a[1..])) + KeepNameChars(b);
      }
    }
  }

  /** Every kept character keeps its multiplicity; every other one is gone. */
  lemma {:induction false} KeepNameCharsCounts(s: string, c: char)
    ensures IsNameChar(c) ==> multiset(KeepNameChars(s))[c] == multiset(s)[c]
    ensures !IsNameChar(c) ==> multiset(KeepNameChars(s))[c] == 0
  {
    if s != [] {
      KeepNameCharsCounts(s[1..], c);
      assert s == [s[0]] + s[1..];
      assert multiset(s) == multiset([s[0]]) + multiset(s[1..]);
      var head := if IsNameChar(s[0]) then [s[0]] else [];
      assert multiset(KeepNameChars(s)) == multiset(head) + multiset(KeepNameChars(s[1..]));
    }
  }

  // ---------------------------------------------------------------------------
  // Substrings

  predicate OccursAt(s: string, sub: string, i: nat)
  {
    i + |sub| <= |s| && s[i..i + |sub|] == sub
  }

  /** Python's `sub in s`. */
  predicate Contains(s: string, sub: string)
    decreases |s|
  {
    sub <= s || (|s| > 0 && Contains(s[1..], sub))
  }

  /** `Contains` holds exactly when `sub` occurs at some position of `s`. */
  lemma {:induction false} ContainsIff(s: string, sub: string)
    ensures Contains(s, sub) <==> exists i: nat :: OccursAt(s, sub, i)
    decreases |s|
  {
    if sub <= s {
      assert OccursAt(s, sub, 0);
    } else if |s| > 0 {
      ContainsIff(s[1..], sub);
      forall i: nat | OccursAt(s[1..], sub, i)
        ensures OccursAt(s, sub, i + 1)
      {
        assert s[i + 1..i + 1 + |sub|] == s[1..][i..i + |sub|];
      }
      forall i: nat | OccursAt(s, sub, i)
        ensures i > 0 && OccursAt(s[1..], sub, i - 1)
      {
        if i > 0 {
          assert s[1..][i - 1..i - 1 + |sub|] == s[i..i + |sub|];
        }
      }
    }
  }

  /** `s.split('\n')[0]`: everything before the first line break. */
  function FirstLine(s: string): (r: string)
    ensures r <= s
    ensures '\n' !in r
    ensures |r| == |s| || s[|r|] == '\n'
  {
    if s == [] || s[0] == '\n' then []
    else [s[0]] + FirstLine(s[1..])
  }

  // ---------------------------------------------------------------------------
  // The section-number pattern `^\d+\.\d+`

  /** Length of the run of digits at the start of `s`. */
  function LeadingDigits(s: string): (n: nat)
    ensures n <= |s|
    ensures forall j :: 0 <= j < n ==> IsDigit(s[j])
    ensures n == |s| || !IsDigit(s[n])
  {
    if s != [] && IsDigit(s[0]) then
      var n := LeadingDigits(s[1..]);
      assert forall j :: 1 <= j < n + 1 ==> s[j] == s[1..][j - 1];
      n + 1
    else
      0
  }

  /** `re.match(r'^\d+\.\d+', s)` succeeds, with the match spanning `s[..j]` and the dot at `i`. */
  predicate SectionNumberAt(s: string, i: nat, j: nat)
  {
    0 < i && i + 1 < j <= |s| && AllDigits(s[..i]) && s[i] == '.' && AllDigits(s[i + 1..j])
  }

  /** The scanner: leading digits, a dot, and at least one more digit. */
  predicate StartsWithSectionNumber(s: string)
  {
    var n := LeadingDigits(s);
    0 < n && n + 1 < |s| && s[n] == '.' && IsDigit(s[n + 1])
  }

  /** The scanner agrees with the regular expression, in both directions. */
  lemma StartsWithSectionNumberIff(s: string)
    ensures StartsWithSectionNumber(s) <==> exists i: nat, j: nat :: SectionNumberAt(s, i, j)
  {
    var n := LeadingDigits(s);
    if StartsWithSectionNumber(s) {
      assert SectionNumberAt(s, n, n + 2);
    }
    if exists i: nat, j: nat :: SectionNumberAt(s, i, j) {
      var i: nat, j: nat :| SectionNumberAt(s, i, j);
      // The digit run cannot stop before the dot, nor run past it.
      assert n == i;
      assert IsDigit(s[i + 1..j][0]);
    }
  }

  // ---------------------------------------------------------------------------
  // Decimal formatting (`str(n)`, `f"{n:03d}"`)

  function DigitChar(d: nat): (c: char)
    requires d < 10
    ensures IsDigit(c)
  {
    ('0' as int + d) as char
  }

  function DigitValue(c: char): (d: nat)
    requires IsDigit(c)
    ensures d < 10
  {
    c as int - '0' as int
  }

  /** `str(n)` for `n >= 0`. */
  function Decimal(n: nat): (r: string)
    ensures |r| > 0 && AllDigits(r)
  {
    if n < 10 then [DigitChar(n)] else Decimal(n / 10) + [DigitChar(n % 10)]
  }

  /** `int(s)` on a string of digits. */
  function ParseDecimal(s: string): nat
    requires AllDigits(s)
  {
    if s == [] then 0 else 10 * ParseDecimal(s[..|s| - 1]) + DigitValue(s[|s| - 1])
  }

  /** Reading back a formatted number yields the number. */
  lemma {:induction false} DecimalRoundTrip(n: nat)
    ensures ParseDecimal(Decimal(n)) == n
  {
    if n >= 10 {
      var s := Decimal(n);
      assert s[..|s| - 1] == Decimal(n / 10);
      DecimalRoundTrip(n / 10);
    }
  }

  lemma DecimalInjective(a: nat, b: nat)
    requires Decimal(a) == Decimal(b)
    ensures a == b
  {
    DecimalRoundTrip(a);
    DecimalRoundTrip(b);
  }

  function Zeros(k: nat): (r: string)
    ensures |r| == k && AllDigits(r)
    ensures forall i :: 0 <= i < k ==> r[i] == '0'
  {
    if k == 0 then [] else ['0'] + Zeros(k - 1)
  }

  /** Leading zeros do not change the value of a digit string. */
  lemma {:induction false} ParseDecimalLeadingZeros(k: nat, s: string)
    requires AllDigits(s)
    ensures ParseDecimal(Zeros(k) + s) == ParseDecimal(s)
    decreases |s|
  {
    if s == [] {
      assert Zeros(k) + s == Zeros(k);
      ZerosValue(k);
    } else {
      var t := Zeros(k) + s;
      assert t[..|t| - 1] == Zeros(k) + s[..|s| - 1];
      ParseDecimalLeadingZeros(k, s[..|s| - 1]);
    }
  }

  lemma {:induction false} ZerosValue(k: nat)
    ensures ParseDecimal(Zeros(k)) == 0
  {
    if k > 0 {
      assert Zeros(k)[..k - 1] == Zeros(k - 1);
      ZerosValue(k - 1);
    }
  }

  /** `f"{n:0{width}d}"` for `n >= 0`: left-padded with zeros to at least `width` digits. */
  function ZeroPadded(n: nat, width: nat): (r: string)
    ensures |r| >= width && AllDigits(r)
    ensures ParseDecimal(r) == n
  {
    var d := Decimal(n);
    DecimalRoundTrip(n);
    ParseDecimalLeadingZeros(width - Min(width, |d|), d);
    Zeros(width - Min(width, |d|)) + d
  }

  lemma ZeroPaddedInjective(a: nat, b: nat, width: nat)
    requires ZeroPadded(a, width) == ZeroPadded(b, width)
    ensures a == b
  {
  }

  /** `str(n)` for any integer. */
  function IntString(n: int): (r: string)
    ensures |r| > 0
    ensures forall k :: 0 <= k < |r| ==> IsDigit(r[k]) || r[k] == '-'
    ensures n >= 0 <==> IsDigit(r[0])
  {
    if n >= 0 then Decimal(n) else "-" + Decimal(-n)
  }

  lemma IntStringInjective(a: int, b: int)
    requires IntString(a) == IntString(b)
    ensures a == b
  {
    if a >= 0 && b >= 0 {
      DecimalInjective(a, b);
    } else if a < 0 && b < 0 {
      assert IntString(a)[1..] == Decimal(-a);
      assert IntString(b)[1..] == Decimal(-b);
      DecimalInjective(-a, -b);
    }
  }
}

=== FILE: wrappers.dfy ===
/** Optional values: the model's stand-in for Python's `None`. */
module Wrappers {

  datatype Option<+T> = None | Some(value: T) {

    /** The wrapped value, or `default` when there is none (`x if x is not None else default`). */
    function GetOr(default: T): T
    {
      match this
      case Some(v) => v
      case None => default
    }
  }
}
